=== FILE: README.md ===
# Shorts Architect: a verified model of brief validation, blueprint synthesis and the submission page

Shorts Architect is a Next.js application. The user fills in a creative brief, and an API route asks a language model for a production blueprint of one YouTube Short. This project models its deterministic core in Dafny:

- **The generate route** (`app/api/generate/route.ts`):
  - the request schema (seven text fields, each with a minimum length);
  - the response schema (a typed record whose arrays have cardinality bounds, and whose shot `notes` are optional with a default);
  - the decisions of `POST`: a missing key gives 500, an invalid brief 400, empty model output 500, a parse or schema failure 500, and a conforming blueprint 200.
- **The page** (`app/page.tsx`):
  - the flattened plain-text package (`compiledScript`);
  - the on-screen hashtag transform and `classNames`;
  - the `handleSubmit` state transitions, the form edits and "Reset brief", and the copy-to-clipboard guard and notice.

Modules, one file each:

| module | file | contents |
|---|---|---|
| `Wrappers` | `wrappers.dfy` | `Option`, `Result` |
| `Text` | `text.dfy` | JavaScript's `Array.prototype.join`, a splitter that inverts it, and string length in UTF-16 code units, which is what zod's `.min(n)` counts |
| `Json` | `json.dfy` | JSON values |
| `Exceptions` | `exceptions.dfy` | `error instanceof Error ? error.message : fallback` |
| `BriefSchema` | `brief.dfy` | `requestSchema`, zod 3's default issue messages, `flatten().fieldErrors`, the page's default brief |
| `Prompt` | `prompt.dfy` | the user prompt built from the brief |
| `BlueprintSchema` | `blueprint.dfy` | `agentResponseSchema` as a reference predicate and as a parser; the serialised blueprint |
| `GenerateRoute` | `route.dfy` | `POST` |
| `Package` | `package.dfy` | `compiledScript`, hashtag display, `classNames` |
| `Submission` | `submission.dfy` | the page state, its events and `handleSubmit` |

Interfaces to code that cannot be seen are parameters:

- **The model call.** The OpenAI model is a function `model: string -> ModelReply`. It is applied to the user prompt, and it yields `output_text` (possibly undefined) or the value it threw.
- **JSON parsing.** `JSON.parse` is a function `parse: string -> Result<Value, string>`, whose failure carries the `SyntaxError` message.
- **Serialising the route's answer.** On the page, the text of a non-ok response is a function `render` of the response body.
- **Outside events.** What `fetch`, the clipboard and the 3-second timer produce are event arguments of the page's state machine.

## Model

| member | source | states |
|---|---|---|
| Text.SplitJoin | app/page.tsx:83-97 | Splitting at newlines gives back the lines a newline-join was built from, provided no line contains a newline. This is how the package's lines can be read back. |
| Text.JoinSplit | app/page.tsx:83-97 | Joining the pieces of a split with the separator restores the text, whatever it contains. |
| Text.Utf16Length | app/api/generate/route.ts:6-12 | The length zod compares with `.min(n)` is at least the number of code points and at most twice it. It equals the number of code points when every character is in the Basic Multilingual Plane. |
| Text.Utf16LengthConcat | app/api/generate/route.ts:6-12 | The length of a concatenation is the sum of the lengths, proved by induction. With `Utf16LengthSingle` this fixes the length as the sum over the characters. |
| Text.Utf16LengthSingle | app/api/generate/route.ts:6-12 | A character counts as two code units (a surrogate pair) when it lies outside the Basic Multilingual Plane, and as one otherwise. |
| Exceptions.CaughtMessage | app/api/generate/route.ts:130-133 | A thrown `Error` reports its own message; any other thrown value reports the fallback. |
| BriefSchema.With | app/page.tsx:215 | Editing one field of the form sets that field and leaves the other six unchanged. |
| BriefSchema.Check | app/api/generate/route.ts:5-13 | A field has no issue exactly when it is a string of at least its minimum length in UTF-16 units. The issue is "Required" exactly when the key is absent. A present value that is not a string raises "expected string" with its JSON type, and a string that is too short raises "too short" with the field's minimum. |
| BriefSchema.Collect | app/api/generate/route.ts:73-77 | Every field that fails is listed, not just the first, and only failing fields are listed. Each comes with its single zod message. |
| BriefSchema.Validate | app/api/generate/route.ts:73-80 | A body is accepted exactly when it is an object and all seven fields meet their minimum lengths. An accepted brief holds the body's strings unchanged. A rejected object names exactly the failing fields, at least one of them. A non-object body gives an empty field map. |
| BriefSchema.FormRoundTrip | app/page.tsx:123-129 | The form the page posts is accepted exactly when its fields meet the minimum lengths, and it is then read back as the same brief. |
| BriefSchema.Message | app/api/generate/route.ts:5-13 | The message of an issue is never empty, and it is "Required" exactly for a missing key. The full wording of the issues a present field raises is stated by `ShortFieldReported` and `WrongTypeReported`. |
| BriefSchema.ToJson | app/page.tsx:128 | The posted body is an object whose every value is a string. Each field travels under its own key (`ToJsonLookup`), and the route reads it back as the same brief (`FormRoundTrip`). |
| BriefSchema.ShortFieldReported | app/api/generate/route.ts:6-12 | A field that is a string shorter than its minimum is reported with zod 3's message "String must contain at least n character(s)". |
| BriefSchema.WrongTypeReported | app/api/generate/route.ts:5-13 | A present field whose value is not a string is reported with zod 3's message "Expected string, received " followed by the value's JSON type ("null", "boolean", "number", "array" or "object"). |
| BriefSchema.DefaultFormValid | app/page.tsx:44-52 | The default brief meets every minimum and is accepted unchanged. |
| Prompt.UserPrompt | app/api/generate/route.ts:99-108 | Definition: the template's lines joined by newlines. Its layout and what can be read back from it are stated by `LinesShape`, `PromptLines`, `PromptRoundTrip` and `PromptInjective`. |
| Prompt.LinesShape | app/api/generate/route.ts:99-108 | The prompt has ten lines: "Brief:", one labelled line per field in the order topic, audience, goal, duration, tone, call to action, language, a blank line, and the closing sentence. |
| Prompt.PromptLines | app/api/generate/route.ts:99-108 | When no field contains a newline, splitting the prompt at newlines gives exactly those ten lines. |
| Prompt.PromptRoundTrip | app/api/generate/route.ts:99-108 | The seven field values can be read back from the prompt, so the prompt loses none of the brief. |
| Prompt.PromptInjective | app/api/generate/route.ts:99-108 | Different single-line briefs produce different prompts. |
| BlueprintSchema.ParseBeat | app/api/generate/route.ts:21-26 | A beat parses exactly when it is an object with four string fields, and the beat carries those strings. |
| BlueprintSchema.ParseShot | app/api/generate/route.ts:31-36 | A shot parses exactly when it is an object with three string fields and, if present, a string `notes`. Present notes are kept; absent notes become "". |
| BlueprintSchema.ParseItems | app/api/generate/route.ts:19-20 | An array parses exactly when every element does. The result has the same length, and element i is element i parsed, so the order is kept. |
| BlueprintSchema.ParseTexts | app/api/generate/route.ts:41-44 | An array of strings parses exactly when it is within its bounds and every element is a string. The result is those strings in order. |
| BlueprintSchema.ParseScript | app/api/generate/route.ts:19-28 | The script parses exactly when it is an array of at least 5 well-shaped beats, each mirrored in order. |
| BlueprintSchema.ParseShotPlan | app/api/generate/route.ts:29-38 | The shot plan parses exactly when it is an array of at least 5 well-shaped shots, each mirrored in order. |
| BlueprintSchema.Conforms | app/api/generate/route.ts:15-46 | Definition: the schema's demand on each of the twelve top-level keys, read directly off `agentResponseSchema`. The parser is checked against it by `Failing`, `Decode` and `MirrorsConform`. |
| BlueprintSchema.Failing | app/api/generate/route.ts:15-46 | The keys reported are exactly the keys whose values the schema rejects. |
| BlueprintSchema.Decode | app/api/generate/route.ts:15-46 | A value is accepted exactly when it is an object whose twelve keys all conform to the schema. The accepted blueprint meets every bound and mirrors the object field by field, element by element. A rejected object names exactly the non-conforming keys, at least one. A non-object is rejected as such. |
| BlueprintSchema.MirrorsConform | app/api/generate/route.ts:19-44 | On an object that mirrors a blueprint, a key conforms exactly when the blueprint meets that key's cardinality bound. |
| BlueprintSchema.MirrorsUnique | app/api/generate/route.ts:123-125 | An object determines the blueprint that mirrors it, so decoding drops or reorders nothing. |
| BlueprintSchema.Encode | app/api/generate/route.ts:125 | The answer's body is a JSON object. That it holds each of the blueprint's twelve fields under its key, element by element, is stated by `EncodeMirrors`; that the schema accepts it back unchanged is stated by `DecodeEncode`. |
| BlueprintSchema.DecodeEncode | app/api/generate/route.ts:123-125 | A blueprint that meets every bound is accepted back from its own JSON, unchanged. |
| BlueprintSchema.EncodedVerdict | app/api/generate/route.ts:19-44 | A serialised blueprint is accepted exactly when it meets every bound. Otherwise it is rejected naming exactly the keys out of bounds. |
| BlueprintSchema.DecodeIdempotent | app/api/generate/route.ts:123-125 | What the route returns is accepted again as itself. |
| BlueprintSchema.ScriptOneShort | app/api/generate/route.ts:19-28 | Four beats instead of five is rejected, and only `script` is named. |
| BlueprintSchema.HashtagBounds | app/api/generate/route.ts:41 | Five hashtags and thirteen hashtags are both rejected. |
| GenerateRoute.KeyConfigured | app/api/generate/route.ts:63-65 | Definition of `!apiKey` negated: a key is configured when it is set and not empty. Its effect is stated by `Generate` and `MissingKeyShortCircuits`. |
| GenerateRoute.Synthesize | app/api/generate/route.ts:86-137 | The model stage answers only 200 or 500, 200 exactly with a blueprint body, and a 200 blueprint meets every bound. |
| GenerateRoute.Generate | app/api/generate/route.ts:62-80 | No key gives the fixed 500, whatever the body. The status is 200, 400 or 500. 400 happens exactly when the key is set and the brief is invalid, with the field-error map as body. 200 happens exactly with a blueprint body that meets every bound. |
| GenerateRoute.SuccessPath | app/api/generate/route.ts:62-125 | 200 happens exactly when all of these hold, and the body is then the decoded blueprint: the key is set, the brief is valid, the model returns non-empty text, the text parses, and the value conforms. |
| GenerateRoute.MissingKeyShortCircuits | app/api/generate/route.ts:63-70 | Without a key the answer is the same 500 whatever the body, the model and the parser. |
| GenerateRoute.InvalidBriefShortCircuits | app/api/generate/route.ts:73-80 | An invalid brief is answered 400 with its field errors whatever the model and the parser. |
| GenerateRoute.ModelSeesOnlyThePrompt | app/api/generate/route.ts:87-115 | Two models that answer the brief's prompt alike give the same response. |
| GenerateRoute.ValidBriefSynthesizes | app/api/generate/route.ts:82-125 | With a key and a valid brief, the answer is the model stage's answer on the parsed brief, so the lemmas below about the model stage apply to `POST`. |
| GenerateRoute.EmptyOutput | app/api/generate/route.ts:117-121 | Undefined or empty model output gives 500 with "No content returned from model.". |
| GenerateRoute.ModelThrew | app/api/generate/route.ts:126-137 | A model call that throws gives 500: with the error's message for an `Error`, with "Failed to synthesize a short blueprint. Please retry." for any other value. |
| GenerateRoute.NotJson | app/api/generate/route.ts:123-136 | Output that does not parse gives 500 with the parser's message. |
| GenerateRoute.NonConforming | app/api/generate/route.ts:123-136 | A parsed object that misses the schema gives 500 with a schema error naming exactly the offending keys. |
| GenerateRoute.Conforming | app/api/generate/route.ts:123-125 | Output that is the JSON of a blueprint meeting every bound gives 200 with exactly that blueprint. |
| Package.BeatLine | app/page.tsx:72-74 | Definition: "timestamp — narration [On-screen: on-screen text]". Where it appears in the package is stated by `PackageLinePositions`, and that it stays on one line by `PackageLayout`. |
| Package.ShotHead | app/page.tsx:79 | Definition: "label (duration): description". `ShotNotesShown` states that it is the whole shot line when the notes are empty. |
| Package.ShotLine | app/page.tsx:76-81 | Definition; its behaviour is stated by `ShotNotesShown`: the head, followed by " — notes" exactly when the notes are not empty. |
| Package.Parts | app/page.tsx:83-97 | Definition of the thirteen parts of the package in order. `CompiledIsLines`, `PackageLayout` and `PackageLinePositions` state how they appear in the package. |
| Package.CompiledScript | app/page.tsx:67-98 | The package is empty exactly when there is no result. With a result it starts with "Title: " and the title. |
| Package.CompiledIsLines | app/page.tsx:83-97 | The package is its lines joined by newlines, with each beat and each shot on a line of its own. |
| Package.PackageLinePositions | app/page.tsx:72-97 | Line by line, the package is: "Title: …", "Hook: …", blank, "Script Beats:", the beats in order, blank, "Shot Plan:", the shots in order, blank, "CTA: …", blank, "Caption: …", "Hashtags: …". That is 11 lines plus one per beat and one per shot. |
| Package.PackageLayout | app/page.tsx:67-98 | When no field contains a newline, splitting the package at newlines gives exactly those lines. |
| Package.ShotNotesShown | app/page.tsx:76-81 | A shot's line ends with " — notes" exactly when its notes are not empty. Otherwise it is the head alone. |
| Package.HashtagsRaw | app/page.tsx:96 | The package's hashtag text is the raw hashtags joined by single spaces, with no `#` added or removed: when there is at least one tag and no tag contains a space, splitting it at spaces gives back exactly the hashtags. |
| Package.DisplayTag | app/page.tsx:485 | A displayed tag always starts with `#`. It is the tag itself when the tag already starts with `#`, and `#` plus the tag otherwise. |
| Package.DisplayTagIdempotent | app/page.tsx:485 | Displaying a displayed tag changes nothing. |
| Package.DoubleHashKept | app/page.tsx:485 | "##x" is shown as "##x"; "x" and "#x" are both shown as "#x". |
| Package.DisplayedHashtagWords | app/page.tsx:485 | When there is at least one tag and no tag contains a space, the displayed hashtag line splits at spaces into the displayed tags, one per hashtag, in order, each starting with `#`. |
| Package.DisplayedHashtags | app/page.tsx:485 | Definition; its behaviour is stated by `DisplayedHashtagWords`: the line splits into the displayed tags, one per hashtag, in order, each starting with `#`. |
| Package.Kept | app/page.tsx:54-56 | The kept classes are non-empty strings, at most one per argument, and a string is kept exactly when it is a non-empty `Str` argument: `false`, `null`, `undefined` and "" are dropped. |
| Package.KeptConcat | app/page.tsx:55 | Filtering distributes over concatenation, so arguments are kept in their order and with their repeats. |
| Package.KeptSingle | app/page.tsx:55 | A single argument is kept, as its string, exactly when it is truthy. With `KeptConcat` this fixes the result as the truthy arguments' strings in argument order. |
| Package.ClassNames | app/page.tsx:54-56 | Definition; its behaviour is stated by `ClassNamesEmpty` and `ClassNamesWords`, with the kept list fixed by `Kept`, `KeptConcat` and `KeptSingle`. |
| Package.ClassNamesEmpty | app/page.tsx:54-56 | The class string is empty exactly when no argument is truthy. |
| Package.ClassNamesWords | app/page.tsx:54-56 | When at least one class is kept and no kept class contains a space, the class string splits at spaces into the kept classes, in argument order (by `KeptConcat`). |
| Submission.FailureText | app/page.tsx:131-140 | A non-ok response shows its body text, or "Unable to generate plan" when that is empty. A thrown `Error` shows its message; anything else shows "Unknown error". |
| Submission.BeginSubmit | app/page.tsx:117-120 | Submission entry sets submitting, clears the result and the error, and keeps the form and the notice. |
| Submission.Finish | app/page.tsx:131-143 | Completion clears submitting and sets the result on success or the error on failure. |
| Submission.HandleSubmit | app/page.tsx:116-144 | A whole submission ends not submitting, with exactly one of a result and an error: a result exactly when the fetch succeeded. |
| Submission.CopyToClipboard | app/page.tsx:100-114 | Empty text changes nothing. Otherwise the notice is the clipboard's success or failure message. |
| Submission.Enabled | app/page.tsx:197-306 | Definition of what the page lets happen. The duration can only be set to one of the `<select>`'s options (lines 252-259). The form is submitted only when its six `required` text fields (lines 216, 228, 242, 268, 282, 296) are all non-empty, and never while submitting (line 306). A completion only arrives while submitting, and "Copy package" is only offered with a result. Its consequences are stated by `StepKeepsInv`, `ReachableDuration` and `SubmitNeedsFilledIn`. |
| Submission.Step | app/page.tsx:100-144 | One event: an edit or a reset (lines 205, 215-295), a submission (`handleSubmit`), its completion, a copy (lines 336-338) or the notice timer (lines 108, 112). Only edits and resets touch the form, and they leave the request, its result and its error as they were. |
| Submission.InitialPage | app/page.tsx:59-63 | The first render (`Initial`: the default brief, not submitting, no result, no error, no notice) is idle and shows nothing. Its brief is accepted by the route unchanged, and its duration is one of the `<select>`'s options. `ReachableConsistent` and `ReachableDuration` start from it. |
| Submission.StepKeepsInv | app/page.tsx:116-144 | No enabled event leads to a page that shows a result and an error together, or shows either while submitting. |
| Submission.RunKeepsInv | app/page.tsx:116-144 | The invariant holds along every admissible sequence of events. |
| Submission.ReachableConsistent | app/page.tsx:306 | No page reachable from the first render shows a result and an error together, given that submit is disabled while submitting. |
| Submission.DurationAlwaysOffered | app/page.tsx:252-259 | Along any admissible run, a duration that is one of the options stays one. |
| Submission.ReachableDuration | app/page.tsx:252-259 | On every page reachable from the first render the duration is "45 seconds", "55 seconds" or "60 seconds". |
| Submission.SubmitNeedsFilledIn | app/page.tsx:197-306 | A submission starts only from a form whose six required text fields are filled in, and it enters the submitting phase. |
| Submission.ResetGivesValidBrief | app/page.tsx:205 | "Reset brief" restores the default brief, which the route accepts unchanged, and touches nothing else. |
| Submission.CopyWithResultWrites | app/page.tsx:336-338 | "Copy package", which is shown only with a result, always writes a notice, because the package of a result is never empty. |
| Submission.Deliver | app/page.tsx:122-136 | Definition of how a route answer reaches `handleSubmit`: a 2xx answer with a blueprint is the payload, and any other answer is its body's text. Its effect on the page is stated by `SubmitThroughRoute`. |
| Submission.SubmitThroughRoute | app/page.tsx:122-143 | After a submission answered by the route, the page shows a result exactly when the route answered 200, and that result meets every bound. An invalid form always ends in an error. |

## Left out

- The OpenAI client and its parameters (model name, 1400-token budget, temperature 0.9) are not modelled. The call is the `model` parameter, because it is network I/O and its output is opaque.
- The `SYSTEM_PROMPT` text is not modelled. It is a constant with no behaviour; only the user prompt is modelled.
- `JSON.parse` is the `parse` parameter and is not modelled. Its failure message is taken as given.
- The text of a `ZodError` message is not modelled. It is a JSON rendering of zod's issue list; `SchemaError` keeps what it reports, namely not an object, or the offending keys.
- `await request.json()` throwing on a malformed body is not modelled. It sits outside the `try` block, so the exception leaves the handler unanswered by its own code. The body is a JSON value.
- `NextResponse.json` serialisation is not modelled. Responses are a status and a `Body` datatype, and the page reads a non-ok body through `render`.
- `console.error`, `fetch`, `navigator.clipboard`, `setTimeout` and React's `useState`/`useMemo` are not modelled. Their results are events of the page's state machine, and `compiledScript` is a function of the result.
- JSX markup and styling are not modelled, and neither is `tailwind.config.ts`. The exceptions are the markup's constraints on input: the six `required` text fields, the duration `<select>` and the disabled submit button, which `Submission.Enabled` models.
- Submission.Enabled: `required` is modelled as "not empty", which is what the browser's constraint validation checks for a text field; a value of spaces passes it. The route, not the page, enforces the minimum lengths.
- zod's `flatten().formErrors` is not modelled, because the route sends only `fieldErrors`.
- The field `label` of a shot is named `shotLabel`, because `label` is a Dafny keyword.
- Package.CompiledIsLines: stated for at least one beat and one shot, because joining an empty list gives one empty line rather than none. Every blueprint the route returns has at least five of each. `CompiledScript` itself covers every case.
- Package.PackageLayout: requires that no field shown in the package contains a newline. Otherwise the line split does not recover the parts, although the joined text is still as stated by `CompiledIsLines`.
- Prompt.PromptRoundTrip: requires single-line field values, for the same reason.
- Package.HashtagsRaw: requires at least one hashtag and no space inside any hashtag, although `z.string()` accepts a tag such as "#a b". With a space inside a tag, splitting the line gives more words than there are tags; the joined text is still the tags joined by single spaces.
- Package.DisplayedHashtagWords: requires at least one hashtag and no space inside any hashtag, for the same reason.
- Package.ClassNamesWords: requires at least one kept class and no space inside any kept class, for the same reason; `KeptConcat` and `KeptSingle` describe the kept list without that condition.
- BriefSchema.Message: the texts are zod 3's default English error map ("Required", "Expected string, received …", "String must contain at least n character(s)"). zod 4 words the same issues differently (for example "Too small: expected string to have >=4 characters"), and the source pins no zod version.
- Text.Utf16Length: exact for well-formed text only. Strings holding unpaired UTF-16 surrogates are not modelled, because a Dafny `char` is a Unicode scalar value. `JSON.parse` does accept such text: "\ud800\ud800" is a `language` of length 2 that zod accepts, and no request body in this model can hold it.

### Behaviour worth knowing

- **Empty strings are accepted in the blueprint.** `title`, `hook`, `summary`, `callToAction`, `caption` and `productionNotes` are plain `z.string()`, so each accepts "".
- **Brief values are stored untrimmed.** An accepted brief holds the body's strings exactly as sent.
- **The hashtag display strips one `#` only.** `replace(/^#/, "")` removes at most one leading `#` before one is prepended, so "##x" stays "##x". The package's hashtag line (page.tsx line 96) applies no transform at all.
- **Editing leaves the outcome on screen.** Editing the form does not clear a shown result or error; it stays until the next submission.
- **The notice timer is never cancelled.** Each copy schedules its own 3-second clear, so an earlier timer can clear a later notice early. `NoticeExpired` clears whatever notice is shown.
- **Minimum lengths count UTF-16 code units**, not characters.
- **A non-object request body gets an empty field map.** It is answered 400, because zod files that issue under `formErrors`, which the route does not send.
- **An empty API key counts as missing**, because the check is `!apiKey`.

=== FILE: blueprint.dfy ===
/**
 * The blueprint the generation route returns and the schema its model output
 * must satisfy (`agentResponseSchema` in app/api/generate/route.ts): a typed
 * record whose arrays have cardinality bounds and whose shots carry an
 * optional `notes` that defaults to "".
 */
module BlueprintSchema {
  import opened Wrappers
  import opened Json

  datatype Beat = Beat(timestamp: string, narration: string, onScreen: string, emphasis: string)

  datatype Shot = Shot(shotLabel: string, description: string, duration: string, notes: string)

  datatype Blueprint = Blueprint(
    title: string,
    hook: string,
    summary: string,
    script: seq<Beat>,
    shotPlan: seq<Shot>,
    callToAction: string,
    caption: string,
    hashtags: seq<string>,
    broll: seq<string>,
    soundDesign: seq<string>,
    tips: seq<string>,
    productionNotes: string)

  /** The cardinality bounds the schema places on a blueprint's arrays. */
  predicate Valid(bp: Blueprint)
  {
    && |bp.script| >= 5
    && |bp.shotPlan| >= 5
    && 6 <= |bp.hashtags| <= 12
    && |bp.broll| >= 5
    && |bp.soundDesign| >= 3
    && |bp.tips| >= 3
  }

  /** The top-level keys of the schema. */
  datatype Key =
    | Title | Hook | Summary | Script | ShotPlan | CallToAction | Caption
    | Hashtags | Broll | SoundDesign | Tips | ProductionNotes

  /** The keys in the order the schema declares them. */
  const Keys: seq<Key> :=
    [Title, Hook, Summary, Script, ShotPlan, CallToAction, Caption, Hashtags, Broll, SoundDesign, Tips, ProductionNotes]

  function Name(k: Key): string
  {
    match k
    case Title => "title"
    case Hook => "hook"
    case Summary => "summary"
    case Script => "script"
    case ShotPlan => "shotPlan"
    case CallToAction => "callToAction"
    case Caption => "caption"
    case Hashtags => "hashtags"
    case Broll => "broll"
    case SoundDesign => "soundDesign"
    case Tips => "tips"
    case ProductionNotes => "productionNotes"
  }

  lemma KeysComplete(k: Key)
    ensures k in Keys
  {
    match k
    case Title => assert Keys[0] == k;
    case Hook => assert Keys[1] == k;
    case Summary => assert Keys[2] == k;
    case Script => assert Keys[3] == k;
    case ShotPlan => assert Keys[4] == k;
    case CallToAction => assert Keys[5] == k;
    case Caption => assert Keys[6] == k;
    case Hashtags => assert Keys[7] == k;
    case Broll => assert Keys[8] == k;
    case SoundDesign => assert Keys[9] == k;
    case Tips => assert Keys[10] == k;
    case ProductionNotes => assert Keys[11] == k;
  }

  // ---------------------------------------------------------------------------
  // The schema stated directly on JSON shapes

  /** `obj[name]` is present and a string. */
  predicate IsText(obj: map<string, Value>, name: string)
  {
    name in obj && obj[name].JString?
  }

  /** `obj[name]` is an array of strings with between `lo` and `hi` elements. */
  predicate IsTextArray(obj: map<string, Value>, name: string, lo: nat, hi: Option<nat>)
  {
    && name in obj && obj[name].JArray?
    && |obj[name].items| >= lo
    && (hi.Some? ==> |obj[name].items| <= hi.value)
    && forall i :: 0 <= i < |obj[name].items| ==> obj[name].items[i].JString?
  }

  /** A script beat: an object with four strings. */
  predicate BeatShaped(v: Value)
  {
    && v.JObject?
    && IsText(v.fields, "timestamp") && IsText(v.fields, "narration")
    && IsText(v.fields, "onScreen") && IsText(v.fields, "emphasis")
  }

  /** A shot: an object with three strings and, when present, a string `notes`. */
  predicate ShotShaped(v: Value)
  {
    && v.JObject?
    && IsText(v.fields, "label") && IsText(v.fields, "description") && IsText(v.fields, "duration")
    && ("notes" in v.fields ==> v.fields["notes"].JString?)
  }

  /** What the schema demands of one top-level key. */
  predicate Conforms(obj: map<string, Value>, k: Key)
  {
    match k
    case Title => IsText(obj, "title")
    case Hook => IsText(obj, "hook")
    case Summary => IsText(obj, "summary")
    case Script =>
      && "script" in obj && obj["script"].JArray? && |obj["script"].items| >= 5
      && forall i :: 0 <= i < |obj["script"].items| ==> BeatShaped(obj["script"].items[i])
    case ShotPlan =>
      && "shotPlan" in obj && obj["shotPlan"].JArray? && |obj["shotPlan"].items| >= 5
      && forall i :: 0 <= i < |obj["shotPlan"].items| ==> ShotShaped(obj["shotPlan"].items[i])
    case CallToAction => IsText(obj, "callToAction")
    case Caption => IsText(obj, "caption")
    case Hashtags => IsTextArray(obj, "hashtags", 6, Some(12))
    case Broll => IsTextArray(obj, "broll", 5, None)
    case SoundDesign => IsTextArray(obj, "soundDesign", 3, None)
    case Tips => IsTextArray(obj, "tips", 3, None)
    case ProductionNotes => IsText(obj, "productionNotes")
  }

  /** A decoded beat carries the object's strings. */
  predicate BeatMirrors(v: Value, b: Beat)
  {
    && v.JObject?
    && Wrap(v.fields, "timestamp", b.timestamp) && Wrap(v.fields, "narration", b.narration)
    && Wrap(v.fields, "onScreen", b.onScreen) && Wrap(v.fields, "emphasis", b.emphasis)
  }

  /** A decoded shot carries the object's strings, and "" for absent notes. */
  predicate ShotMirrors(v: Value, s: Shot)
  {
    && v.JObject?
    && Wrap(v.fields, "label", s.shotLabel) && Wrap(v.fields, "description", s.description)
    && Wrap(v.fields, "duration", s.duration)
    && (if "notes" in v.fields then v.fields["notes"] == JString(s.notes) else s.notes == "")
  }

  /** `obj[name]` is the string `s`. */
  predicate Wrap(obj: map<string, Value>, name: string, s: string)
  {
    name in obj && obj[name] == JString(s)
  }

  /** `obj[name]` is the array of strings `ss`, element by element. */
  predicate WrapTexts(obj: map<string, Value>, name: string, ss: seq<string>)
  {
    && name in obj && obj[name].JArray? && |obj[name].items| == |ss|
    && forall i :: 0 <= i < |ss| ==> obj[name].items[i] == JString(ss[i])
  }

  /** Every field of `bp` is read from `obj`: nothing lost, nothing reordered. */
  predicate Mirrors(obj: map<string, Value>, bp: Blueprint)
  {
    && Wrap(obj, "title", bp.title) && Wrap(obj, "hook", bp.hook) && Wrap(obj, "summary", bp.summary)
    && "script" in obj && obj["script"].JArray? && |obj["script"].items| == |bp.script|
    && (forall i :: 0 <= i < |bp.script| ==> BeatMirrors(obj["script"].items[i], bp.script[i]))
    && "shotPlan" in obj && obj["shotPlan"].JArray? && |obj["shotPlan"].items| == |bp.shotPlan|
    && (forall i :: 0 <= i < |bp.shotPlan| ==> ShotMirrors(obj["shotPlan"].items[i], bp.shotPlan[i]))
    && Wrap(obj, "callToAction", bp.callToAction) && Wrap(obj, "caption", bp.caption)
    && WrapTexts(obj, "hashtags", bp.hashtags) && WrapTexts(obj, "broll", bp.broll)
    && WrapTexts(obj, "soundDesign", bp.soundDesign) && WrapTexts(obj, "tips", bp.tips)
    && Wrap(obj, "productionNotes", bp.productionNotes)
  }

  // ---------------------------------------------------------------------------
  // The parsers zod runs

  /** `z.string()` applied to `obj[name]`. */
  function ParseText(obj: map<string, Value>, name: string): (r: Option<string>)
    ensures r.Some? <==> IsText(obj, name)
    ensures r.Some? ==> Wrap(obj, name, r.value)
  {
    if name in obj && obj[name].JString? then Some(obj[name].s) else None
  }

  /** `z.object({timestamp, narration, onScreen, emphasis})` applied to one array element. */
  function ParseBeat(v: Value): (r: Option<Beat>)
    ensures r.Some? <==> BeatShaped(v)
    ensures r.Some? ==> BeatMirrors(v, r.value)
  {
    if !v.JObject? then None
    else
      var t := ParseText(v.fields, "timestamp");
      var n := ParseText(v.fields, "narration");
      var o := ParseText(v.fields, "onScreen");
      var e := ParseText(v.fields, "emphasis");
      if t.Some? && n.Some? && o.Some? && e.Some? then Some(Beat(t.value, n.value, o.value, e.value))
      else None
  }

  /** The shot object, with `notes: z.string().optional().default("")`. */
  function ParseShot(v: Value): (r: Option<Shot>)
    ensures r.Some? <==> ShotShaped(v)
    ensures r.Some? ==> ShotMirrors(v, r.value)
  {
    if !v.JObject? then None
    else
      var l := ParseText(v.fields, "label");
      var d := ParseText(v.fields, "description");
      var u := ParseText(v.fields, "duration");
      var n := if "notes" in v.fields then ParseText(v.fields, "notes") else Some("");
      if l.Some? && d.Some? && u.Some? && n.Some? then Some(Shot(l.value, d.value, u.value, n.value))
      else None
  }

  /** Every element parsed in order, or None as soon as one fails. */
  function ParseItems<T>(items: seq<Value>, parse: Value -> Option<T>): (r: Option<seq<T>>)
    ensures r.Some? <==> forall i :: 0 <= i < |items| ==> parse(items[i]).Some?
    ensures r.Some? ==> |r.value| == |items|
    ensures r.Some? ==> forall i :: 0 <= i < |items| ==> r.value[i] == parse(items[i]).value
  {
    if |items| == 0 then Some([])
    else
      var head := parse(items[0]);
      var tail := ParseItems(items[1..], parse);
      if head.Some? && tail.Some? then Some([head.value] + tail.value)
      else
        assert head.None? ==> !parse(items[0]).Some?;
        assert tail.None? ==> exists i :: 0 <= i < |items[1..]| && parse(items[1..][i]).None?;
        None
  }

  /** `z.string()` as a function value, for arrays of strings. */
  function ParseString(v: Value): (r: Option<string>)
    ensures r.Some? <==> v.JString?
    ensures r.Some? ==> v == JString(r.value)
  {
    if v.JString? then Some(v.s) else None
  }

  /** The script: `z.array(beat).min(5)`. */
  function ParseScript(obj: map<string, Value>): (r: Option<seq<Beat>>)
    ensures r.Some? <==> Conforms(obj, Script)
    ensures r.Some? ==> |r.value| == |obj["script"].items|
    ensures r.Some? ==> forall i :: 0 <= i < |r.value| ==> BeatMirrors(obj["script"].items[i], r.value[i])
  {
    if "script" !in obj || !obj["script"].JArray? || |obj["script"].items| < 5 then None
    else ParseItems(obj["script"].items, ParseBeat)
  }

  /** The shot plan: `z.array(shot).min(5)`. */
  function ParseShotPlan(obj: map<string, Value>): (r: Option<seq<Shot>>)
    ensures r.Some? <==> Conforms(obj, ShotPlan)
    ensures r.Some? ==> |r.value| == |obj["shotPlan"].items|
    ensures r.Some? ==> forall i :: 0 <= i < |r.value| ==> ShotMirrors(obj["shotPlan"].items[i], r.value[i])
  {
    if "shotPlan" !in obj || !obj["shotPlan"].JArray? || |obj["shotPlan"].items| < 5 then None
    else ParseItems(obj["shotPlan"].items, ParseShot)
  }

  /** `z.array(z.string()).min(lo)`, and `.max(hi)` when given. */
  function ParseTexts(obj: map<string, Value>, name: string, lo: nat, hi: Option<nat>): (r: Option<seq<string>>)
    ensures r.Some? <==> IsTextArray(obj, name, lo, hi)
    ensures r.Some? ==> WrapTexts(obj, name, r.value)
    ensures r.Some? ==> lo <= |r.value| && (hi.Some? ==> |r.value| <= hi.value)
  {
    if name !in obj || !obj[name].JArray? then None
    else
      var items := obj[name].items;
      if |items| < lo || (hi.Some? && |items| > hi.value) then None
      else ParseItems(items, ParseString)
  }

  /** The keys among `ks` whose value the schema rejects, in order: the paths of zod's issues. */
  function Failing(obj: map<string, Value>, ks: seq<Key>): (r: seq<Key>)
    ensures forall k :: k in r <==> k in ks && !Conforms(obj, k)
  {
    if |ks| == 0 then []
    else
      assert ks == [ks[0]] + ks[1..];
      (if Conforms(obj, ks[0]) then [] else [ks[0]]) + Failing(obj, ks[1..])
  }

  /** Why a model output is not a blueprint: not an object, or the keys whose values fail. */
  datatype SchemaError = NotAnObject | InvalidFields(keys: seq<Key>)

  /**
   * `agentResponseSchema.parse(value)`: the blueprint, with unknown keys
   * dropped and absent shot notes defaulted, or the schema error.
   */
  function Decode(v: Value): (r: Result<Blueprint, SchemaError>)
    ensures r.Success? <==> v.JObject? && forall k :: Conforms(v.fields, k)
    ensures r.Success? ==> Valid(r.value) && Mirrors(v.fields, r.value)
    ensures r.Failure? && v.JObject? ==>
              r.error.InvalidFields? && |r.error.keys| >= 1
              && forall k :: k in r.error.keys <==> !Conforms(v.fields, k)
    ensures !v.JObject? ==> r == Failure(NotAnObject)
  {
    if !v.JObject? then Failure(NotAnObject)
    else
      var obj := v.fields;
      var read := Read(obj);
      ReadSomeIff(obj);
      ReadValid(obj);
      AllConformEvery(obj);
      AllKeys();
      if read.Some? then Success(read.value)
      else
        var failing := Failing(obj, Keys);
        assert exists k :: !Conforms(obj, k);
        var k :| !Conforms(obj, k);
        assert k in failing;
        Failure(InvalidFields(failing))
  }

  lemma AllKeys()
    ensures forall k :: k in Keys
  {
    forall k ensures k in Keys {
      KeysComplete(k);
    }
  }

  /** Every key's value conforms. */
  predicate AllConform(obj: map<string, Value>)
  {
    && Conforms(obj, Title) && Conforms(obj, Hook) && Conforms(obj, Summary) && Conforms(obj, Script)
    && Conforms(obj, ShotPlan) && Conforms(obj, CallToAction) && Conforms(obj, Caption)
    && Conforms(obj, Hashtags) && Conforms(obj, Broll) && Conforms(obj, SoundDesign)
    && Conforms(obj, Tips) && Conforms(obj, ProductionNotes)
  }

  /** `AllConform` is the schema's demand on every key. */
  lemma AllConformEvery(obj: map<string, Value>)
    ensures AllConform(obj) <==> forall k :: Conforms(obj, k)
  {
    if AllConform(obj) {
      forall k ensures Conforms(obj, k) {
        match k
        case Title =>
        case Hook =>
        case Summary =>
        case Script =>
        case ShotPlan =>
        case CallToAction =>
        case Caption =>
        case Hashtags =>
        case Broll =>
        case SoundDesign =>
        case Tips =>
        case ProductionNotes =>
      }
    }
  }

  /** The blueprint, once every field has parsed. */
  function Assemble(title: Option<string>, hook: Option<string>, summary: Option<string>,
                    script: Option<seq<Beat>>, shotPlan: Option<seq<Shot>>,
                    cta: Option<string>, caption: Option<string>, hashtags: Option<seq<string>>,
                    broll: Option<seq<string>>, soundDesign: Option<seq<string>>, tips: Option<seq<string>>,
                    notes: Option<string>): Option<Blueprint>
  {
    if && title.Some? && hook.Some? && summary.Some? && script.Some? && shotPlan.Some?
       && cta.Some? && caption.Some? && hashtags.Some? && broll.Some? && soundDesign.Some?
       && tips.Some? && notes.Some?
    then Some(Blueprint(title.value, hook.value, summary.value, script.value, shotPlan.value,
                        cta.value, caption.value, hashtags.value, broll.value, soundDesign.value,
                        tips.value, notes.value))
    else None
  }

  /** Every field parsed by its own zod parser, then assembled. */
  function Read(obj: map<string, Value>): Option<Blueprint>
  {
    Assemble(
      ParseText(obj, "title"),
      ParseText(obj, "hook"),
      ParseText(obj, "summary"),
      ParseScript(obj),
      ParseShotPlan(obj),
      ParseText(obj, "callToAction"),
      ParseText(obj, "caption"),
      ParseTexts(obj, "hashtags", 6, Some(12)),
      ParseTexts(obj, "broll", 5, None),
      ParseTexts(obj, "soundDesign", 3, None),
      ParseTexts(obj, "tips", 3, None),
      ParseText(obj, "productionNotes"))
  }

  /** Reading succeeds exactly when each field's parser does. */
  lemma ReadParses(obj: map<string, Value>)
    ensures Read(obj).Some? <==>
      && ParseText(obj, "title").Some? && ParseText(obj, "hook").Some? && ParseText(obj, "summary").Some?
      && ParseScript(obj).Some? && ParseShotPlan(obj).Some? && ParseText(obj, "callToAction").Some?
      && ParseText(obj, "caption").Some? && ParseTexts(obj, "hashtags", 6, Some(12)).Some?
      && ParseTexts(obj, "broll", 5, None).Some? && ParseTexts(obj, "soundDesign", 3, None).Some?
      && ParseTexts(obj, "tips", 3, None).Some? && ParseText(obj, "productionNotes").Some?
  {
  }

  /** Whether the parser of key `k` succeeds on `obj`. */
  predicate Parsed(obj: map<string, Value>, k: Key)
  {
    match k
    case Title => ParseText(obj, "title").Some?
    case Hook => ParseText(obj, "hook").Some?
    case Summary => ParseText(obj, "summary").Some?
    case Script => ParseScript(obj).Some?
    case ShotPlan => ParseShotPlan(obj).Some?
    case CallToAction => ParseText(obj, "callToAction").Some?
    case Caption => ParseText(obj, "caption").Some?
    case Hashtags => ParseTexts(obj, "hashtags", 6, Some(12)).Some?
    case Broll => ParseTexts(obj, "broll", 5, None).Some?
    case SoundDesign => ParseTexts(obj, "soundDesign", 3, None).Some?
    case Tips => ParseTexts(obj, "tips", 3, None).Some?
    case ProductionNotes => ParseText(obj, "productionNotes").Some?
  }
  /** Each key's parser accepts exactly what the schema describes for it. */
  lemma ParsedIff(obj: map<string, Value>, k: Key)
    ensures Parsed(obj, k) == Conforms(obj, k)
  {
    match k
    case Title =>
    case Hook =>
    case Summary =>
    case Script =>
    case ShotPlan =>
    case CallToAction =>
    case Caption =>
    case Hashtags =>
    case Broll =>
    case SoundDesign =>
    case Tips =>
    case ProductionNotes =>
  }
  /** Reading succeeds exactly when every key conforms. */
  lemma ReadSomeIff(obj: map<string, Value>)
    ensures Read(obj).Some? <==> AllConform(obj)
  {
    ReadParses(obj);
    ParsedIff(obj, Title); ParsedIff(obj, Hook); ParsedIff(obj, Summary); ParsedIff(obj, Script);
    ParsedIff(obj, ShotPlan); ParsedIff(obj, CallToAction); ParsedIff(obj, Caption); ParsedIff(obj, Hashtags);
    ParsedIff(obj, Broll); ParsedIff(obj, SoundDesign); ParsedIff(obj, Tips); ParsedIff(obj, ProductionNotes);
  }

  /** A successful read is a valid blueprint that mirrors the object. */
  lemma ReadValid(obj: map<string, Value>)
    ensures Read(obj).Some? ==> Valid(Read(obj).value) && Mirrors(obj, Read(obj).value)
  {
    if Read(obj).None? { return; }
    var bp := Read(obj).value;
    assert bp.script == ParseScript(obj).value && bp.shotPlan == ParseShotPlan(obj).value;
    assert bp.hashtags == ParseTexts(obj, "hashtags", 6, Some(12)).value;
    assert bp.broll == ParseTexts(obj, "broll", 5, None).value;
    assert bp.soundDesign == ParseTexts(obj, "soundDesign", 3, None).value;
    assert bp.tips == ParseTexts(obj, "tips", 3, None).value;
    assert bp.title == ParseText(obj, "title").value && bp.hook == ParseText(obj, "hook").value;
    assert bp.summary == ParseText(obj, "summary").value;
    assert bp.callToAction == ParseText(obj, "callToAction").value;
    assert bp.caption == ParseText(obj, "caption").value;
    assert bp.productionNotes == ParseText(obj, "productionNotes").value;
  }

  // ---------------------------------------------------------------------------
  // The 200 body: the blueprint serialised back to JSON

  function EncodeBeat(b: Beat): Value
  {
    JObject(map[
      "timestamp" := JString(b.timestamp), "narration" := JString(b.narration),
      "onScreen" := JString(b.onScreen), "emphasis" := JString(b.emphasis)])
  }

  /** A parsed shot always has its `notes`, so the serialised shot always carries the key. */
  function EncodeShot(s: Shot): Value
  {
    JObject(map[
      "label" := JString(s.shotLabel), "description" := JString(s.description),
      "duration" := JString(s.duration), "notes" := JString(s.notes)])
  }

  function EncodeBeats(bs: seq<Beat>): (r: seq<Value>)
    ensures |r| == |bs| && forall i :: 0 <= i < |bs| ==> r[i] == EncodeBeat(bs[i])
  {
    if |bs| == 0 then [] else [EncodeBeat(bs[0])] + EncodeBeats(bs[1..])
  }

  function EncodeShots(ss: seq<Shot>): (r: seq<Value>)
    ensures |r| == |ss| && forall i :: 0 <= i < |ss| ==> r[i] == EncodeShot(ss[i])
  {
    if |ss| == 0 then [] else [EncodeShot(ss[0])] + EncodeShots(ss[1..])
  }

  function EncodeTexts(ts: seq<string>): (r: seq<Value>)
    ensures |r| == |ts| && forall i :: 0 <= i < |ts| ==> r[i] == JString(ts[i])
  {
    if |ts| == 0 then [] else [JString(ts[0])] + EncodeTexts(ts[1..])
  }

  /** The JSON object `NextResponse.json(structured)` serialises. */
  function Encode(bp: Blueprint): (r: Value)
    ensures r.JObject?
  {
    JObject(map[
      "title" := JString(bp.title),
      "hook" := JString(bp.hook),
      "summary" := JString(bp.summary),
      "script" := JArray(EncodeBeats(bp.script)),
      "shotPlan" := JArray(EncodeShots(bp.shotPlan)),
      "callToAction" := JString(bp.callToAction),
      "caption" := JString(bp.caption),
      "hashtags" := JArray(EncodeTexts(bp.hashtags)),
      "broll" := JArray(EncodeTexts(bp.broll)),
      "soundDesign" := JArray(EncodeTexts(bp.soundDesign)),
      "tips" := JArray(EncodeTexts(bp.tips)),
      "productionNotes" := JString(bp.productionNotes)])
  }

  /** The cardinality bound of one key, read on the blueprint. */
  predicate CountOk(bp: Blueprint, k: Key)
  {
    match k
    case Script => |bp.script| >= 5
    case ShotPlan => |bp.shotPlan| >= 5
    case Hashtags => 6 <= |bp.hashtags| <= 12
    case Broll => |bp.broll| >= 5
    case SoundDesign => |bp.soundDesign| >= 3
    case Tips => |bp.tips| >= 3
    case _ => true
  }

  /** Each key of the serialised blueprint holds the matching field. */
  lemma EncodeLookups(bp: Blueprint)
    ensures HoldsEncoded(Encode(bp).fields, bp)
  {
  }

  lemma BeatEncodeMirrors(b: Beat)
    ensures BeatMirrors(EncodeBeat(b), b)
  {
  }

  lemma ShotEncodeMirrors(s: Shot)
    ensures ShotMirrors(EncodeShot(s), s)
  {
  }

  /** An object holding the serialised fields of `bp` mirrors `bp`. */
  predicate HoldsEncoded(obj: map<string, Value>, bp: Blueprint)
  {
    && Wrap(obj, "title", bp.title) && Wrap(obj, "hook", bp.hook) && Wrap(obj, "summary", bp.summary)
    && "script" in obj && obj["script"] == JArray(EncodeBeats(bp.script))
    && "shotPlan" in obj && obj["shotPlan"] == JArray(EncodeShots(bp.shotPlan))
    && Wrap(obj, "callToAction", bp.callToAction) && Wrap(obj, "caption", bp.caption)
    && "hashtags" in obj && obj["hashtags"] == JArray(EncodeTexts(bp.hashtags))
    && "broll" in obj && obj["broll"] == JArray(EncodeTexts(bp.broll))
    && "soundDesign" in obj && obj["soundDesign"] == JArray(EncodeTexts(bp.soundDesign))
    && "tips" in obj && obj["tips"] == JArray(EncodeTexts(bp.tips))
    && Wrap(obj, "productionNotes", bp.productionNotes)
  }

  lemma HoldsEncodedMirrors(obj: map<string, Value>, bp: Blueprint)
    requires HoldsEncoded(obj, bp)
    ensures Mirrors(obj, bp)
  {
    forall i | 0 <= i < |bp.script| ensures BeatMirrors(obj["script"].items[i], bp.script[i]) {
      BeatEncodeMirrors(bp.script[i]);
    }
    forall i | 0 <= i < |bp.shotPlan| ensures ShotMirrors(obj["shotPlan"].items[i], bp.shotPlan[i]) {
      ShotEncodeMirrors(bp.shotPlan[i]);
    }
    assert WrapTexts(obj, "hashtags", bp.hashtags);
    assert WrapTexts(obj, "broll", bp.broll);
    assert WrapTexts(obj, "soundDesign", bp.soundDesign);
    assert WrapTexts(obj, "tips", bp.tips);
  }

  lemma EncodeMirrors(bp: Blueprint)
    ensures Mirrors(Encode(bp).fields, bp)
  {
    EncodeLookups(bp);
    HoldsEncodedMirrors(Encode(bp).fields, bp);
  }

  /** On an object that mirrors a blueprint, a key conforms exactly when the blueprint meets that key's bound. */
  lemma MirrorsConform(obj: map<string, Value>, bp: Blueprint, k: Key)
    requires Mirrors(obj, bp)
    ensures Conforms(obj, k) <==> CountOk(bp, k)
  {
    match k
    case Script =>
      forall i | 0 <= i < |bp.script| ensures BeatShaped(obj["script"].items[i]) {
        assert BeatMirrors(obj["script"].items[i], bp.script[i]);
      }
    case ShotPlan =>
      forall i | 0 <= i < |bp.shotPlan| ensures ShotShaped(obj["shotPlan"].items[i]) {
        assert ShotMirrors(obj["shotPlan"].items[i], bp.shotPlan[i]);
      }
    case _ =>
  }

  /** An object determines the blueprint that mirrors it. */
  lemma MirrorsUnique(obj: map<string, Value>, a: Blueprint, b: Blueprint)
    requires Mirrors(obj, a) && Mirrors(obj, b)
    ensures a == b
  {
    assert a.script == b.script by {
      forall i | 0 <= i < |a.script| ensures a.script[i] == b.script[i] {
        assert BeatMirrors(obj["script"].items[i], a.script[i]);
        assert BeatMirrors(obj["script"].items[i], b.script[i]);
      }
    }
    assert a.shotPlan == b.shotPlan by {
      forall i | 0 <= i < |a.shotPlan| ensures a.shotPlan[i] == b.shotPlan[i] {
        assert ShotMirrors(obj["shotPlan"].items[i], a.shotPlan[i]);
        assert ShotMirrors(obj["shotPlan"].items[i], b.shotPlan[i]);
      }
    }
    TextsUnique(obj, "hashtags", a.hashtags, b.hashtags);
    TextsUnique(obj, "broll", a.broll, b.broll);
    TextsUnique(obj, "soundDesign", a.soundDesign, b.soundDesign);
    TextsUnique(obj, "tips", a.tips, b.tips);
  }

  lemma TextsUnique(obj: map<string, Value>, name: string, a: seq<string>, b: seq<string>)
    requires WrapTexts(obj, name, a) && WrapTexts(obj, name, b)
    ensures a == b
  {
    forall i | 0 <= i < |a| ensures a[i] == b[i] {
      assert obj[name].items[i] == JString(a[i]);
    }
  }

  /**
   * Round trip: a blueprint that meets every bound is accepted back from its
   * own JSON with no field lost and no array reordered.
   */
  lemma {:induction false} DecodeEncode(bp: Blueprint)
    requires Valid(bp)
    ensures Decode(Encode(bp)) == Success(bp)
  {
    var obj := Encode(bp).fields;
    EncodeMirrors(bp);
    forall k ensures Conforms(obj, k) {
      MirrorsConform(obj, bp, k);
    }
    var r := Decode(Encode(bp));
    MirrorsUnique(obj, r.value, bp);
  }

  /**
   * The schema's verdict on a serialised blueprint: accepted exactly when
   * every bound holds, otherwise rejected naming exactly the keys out of bounds.
   */
  lemma {:induction false} EncodedVerdict(bp: Blueprint)
    ensures Decode(Encode(bp)).Success? <==> Valid(bp)
    ensures Decode(Encode(bp)).Failure? ==>
              Decode(Encode(bp)).error.InvalidFields?
              && forall k :: k in Decode(Encode(bp)).error.keys <==> !CountOk(bp, k)
  {
    EncodeMirrors(bp);
    MirroredVerdict(Encode(bp).fields, bp);
  }

  /** The verdict on any object that mirrors `bp`, which is what `EncodedVerdict` needs. */
  lemma {:induction false} MirroredVerdict(obj: map<string, Value>, bp: Blueprint)
    requires Mirrors(obj, bp)
    ensures Decode(JObject(obj)).Success? <==> Valid(bp)
    ensures Decode(JObject(obj)).Failure? ==>
              Decode(JObject(obj)).error.InvalidFields?
              && forall k :: k in Decode(JObject(obj)).error.keys <==> !CountOk(bp, k)
  {
    forall k ensures Conforms(obj, k) <==> CountOk(bp, k) {
      MirrorsConform(obj, bp, k);
    }
    ValidIffCounts(bp);
  }

  /** `Valid` is the conjunction of the per-key bounds. */
  lemma ValidIffCounts(bp: Blueprint)
    ensures Valid(bp) <==> forall k :: CountOk(bp, k)
  {
    assert Valid(bp) <==> (CountOk(bp, Script) && CountOk(bp, ShotPlan) && CountOk(bp, Hashtags)
                           && CountOk(bp, Broll) && CountOk(bp, SoundDesign) && CountOk(bp, Tips));
  }

  /** Normalising is idempotent: what the route returned is accepted again as itself. */
  lemma {:induction false} DecodeIdempotent(v: Value)
    requires Decode(v).Success?
    ensures Decode(Encode(Decode(v).value)) == Decode(v)
  {
    DecodeEncode(Decode(v).value);
  }

  /** One beat short of the minimum: rejected, and only `script` is named. */
  lemma {:induction false} ScriptOneShort(bp: Blueprint)
    requires Valid(bp) && |bp.script| == 5
    ensures Decode(Encode(bp.(script := bp.script[..4]))).Failure?
    ensures forall k :: k in Decode(Encode(bp.(script := bp.script[..4]))).error.keys <==> k == Script
  {
    var short := bp.(script := bp.script[..4]);
    assert |short.script| == 4;
    forall k ensures !CountOk(short, k) <==> k == Script {
    }
    EncodedVerdict(short);
  }

  /** Five and thirteen hashtags are both rejected; six and twelve are both accepted. */
  lemma {:induction false} HashtagBounds(bp: Blueprint, extra: string)
    requires Valid(bp)
    ensures |bp.hashtags| == 6 ==> Decode(Encode(bp.(hashtags := bp.hashtags[1..]))).Failure?
    ensures |bp.hashtags| == 12 ==> Decode(Encode(bp.(hashtags := bp.hashtags + [extra]))).Failure?
    ensures Decode(Encode(bp)).Success?
  {
    EncodedVerdict(bp.(hashtags := bp.hashtags[1..]));
    EncodedVerdict(bp.(hashtags := bp.hashtags + [extra]));
    EncodedVerdict(bp);
  }
}

=== FILE: brief.dfy ===
/**
 * The creative brief and the request schema of the generation route
 * (`requestSchema` in app/api/generate/route.ts): seven text fields, each
 * with a minimum length, checked with zod's `safeParse` and reported, on
 * failure, as zod's flattened per-field error map.
 */
module BriefSchema {
  import opened Wrappers
  import opened Text
  import opened Json

  /** A creative brief; the page's form state has exactly these fields. */
  datatype Brief = Brief(
    topic: string,
    audience: string,
    goal: string,
    duration: string,
    tone: string,
    callToAction: string,
    language: string)

  /** The names of the brief's fields. */
  datatype Field = Topic | Audience | Goal | Duration | Tone | CallToAction | Language

  /** The fields in the order the schema declares them. */
  const Fields: seq<Field> := [Topic, Audience, Goal, Duration, Tone, CallToAction, Language]

  /** The JSON key of a field. */
  function Key(f: Field): string
  {
    match f
    case Topic => "topic"
    case Audience => "audience"
    case Goal => "goal"
    case Duration => "duration"
    case Tone => "tone"
    case CallToAction => "callToAction"
    case Language => "language"
  }

  /** The `.min(n)` bound of a field. */
  function MinLength(f: Field): nat
  {
    match f
    case Topic => 4
    case Audience => 4
    case Goal => 4
    case Duration => 2
    case Tone => 2
    case CallToAction => 2
    case Language => 2
  }

  function Get(b: Brief, f: Field): string
  {
    match f
    case Topic => b.topic
    case Audience => b.audience
    case Goal => b.goal
    case Duration => b.duration
    case Tone => b.tone
    case CallToAction => b.callToAction
    case Language => b.language
  }

  /** The brief with one field replaced (the form's `onChange`). */
  function With(b: Brief, f: Field, v: string): (r: Brief)
    ensures Get(r, f) == v
    ensures forall g :: g != f ==> Get(r, g) == Get(b, g)
  {
    match f
    case Topic => b.(topic := v)
    case Audience => b.(audience := v)
    case Goal => b.(goal := v)
    case Duration => b.(duration := v)
    case Tone => b.(tone := v)
    case CallToAction => b.(callToAction := v)
    case Language => b.(language := v)
  }

  /** Every field is listed in `Fields`, exactly once. */
  lemma FieldsComplete(f: Field)
    ensures f in Fields
  {
    match f
    case Topic => assert Fields[0] == f;
    case Audience => assert Fields[1] == f;
    case Goal => assert Fields[2] == f;
    case Duration => assert Fields[3] == f;
    case Tone => assert Fields[4] == f;
    case CallToAction => assert Fields[5] == f;
    case Language => assert Fields[6] == f;
  }

  /** The requirement of the schema on one field, stated directly: present, a string, long enough. */
  predicate Meets(obj: map<string, Value>, f: Field)
  {
    Key(f) in obj && obj[Key(f)].JString? && Utf16Length(obj[Key(f)].s) >= MinLength(f)
  }

  /** A brief whose every field meets its minimum length. */
  predicate ValidBrief(b: Brief)
  {
    forall f :: Utf16Length(Get(b, f)) >= MinLength(f)
  }

  /** The kinds of issue zod raises for one field of this schema. */
  datatype Issue = Required | ExpectedString(received: string) | TooShort(minimum: nat)

  /** The decimal digits of `n`. */
  function Decimal(n: nat): (r: string)
    ensures |r| >= 1
  {
    var d := ["0", "1", "2", "3", "4", "5", "6", "7", "8", "9"][n % 10];
    if n < 10 then d else Decimal(n / 10) + d
  }

  /** zod 3's default English message for an issue; only a missing key reads "Required". */
  function Message(i: Issue): (r: string)
    ensures r != ""
    ensures r == "Required" <==> i.Required?
  {
    match i
    case Required => "Required"
    case ExpectedString(t) => "Expected string, received " + t
    case TooShort(m) => "String must contain at least " + Decimal(m) + " character(s)"
  }

  /** zod's verdict on one field: the first issue it raises, or None when the field passes. */
  function Check(obj: map<string, Value>, f: Field): (r: Option<Issue>)
    ensures r.None? <==> Meets(obj, f)
    ensures r == Some(Required) <==> Key(f) !in obj
    ensures Key(f) in obj && !obj[Key(f)].JString? ==> r == Some(ExpectedString(TypeName(obj[Key(f)])))
    ensures Key(f) in obj && obj[Key(f)].JString? && !Meets(obj, f) ==> r == Some(TooShort(MinLength(f)))
  {
    if Key(f) !in obj then Some(Required)
    else match obj[Key(f)]
      case JString(s) => if Utf16Length(s) >= MinLength(f) then None else Some(TooShort(MinLength(f)))
      case v => Some(ExpectedString(TypeName(v)))
  }

  /**
   * One entry of `error.flatten().fieldErrors`: the field (whose JSON key is
   * `Key(field)`) and the messages raised for it.
   */
  datatype FieldError = FieldError(field: Field, messages: seq<string>)

  /** The fields an error map names, in order. */
  function Failed(errs: seq<FieldError>): (r: seq<Field>)
    ensures |r| == |errs|
    ensures forall i :: 0 <= i < |errs| ==> r[i] == errs[i].field
  {
    if |errs| == 0 then [] else [errs[0].field] + Failed(errs[1..])
  }

  /** Prepending an entry prepends its field. */
  lemma FailedCons(e: FieldError, rest: seq<FieldError>)
    ensures Failed([e] + rest) == [e.field] + Failed(rest)
  {
    assert ([e] + rest)[1..] == rest;
  }

  /** The error entries zod reports for the fields `fs`, in order. */
  function Collect(obj: map<string, Value>, fs: seq<Field>): (errs: seq<FieldError>)
    ensures forall f :: f in Failed(errs) <==> f in fs && !Meets(obj, f)
    ensures forall i :: 0 <= i < |errs| ==>
              !Meets(obj, errs[i].field) && errs[i].messages == [Message(Check(obj, errs[i].field).value)]
  {
    if |fs| == 0 then []
    else
      var f := fs[0];
      var rest := Collect(obj, fs[1..]);
      assert fs == [f] + fs[1..];
      if Meets(obj, f) then rest
      else
        var e := FieldError(f, [Message(Check(obj, f).value)]);
        FailedCons(e, rest);
        [e] + rest
  }

  /**
   * `requestSchema.safeParse(json)`: the brief read from a JSON body, or the
   * flattened field errors. A body that is not an object raises a root-level
   * issue, which zod's `flatten` puts outside `fieldErrors`, so the map is empty.
   */
  function Validate(body: Value): (r: Result<Brief, seq<FieldError>>)
    ensures r.Success? <==> body.JObject? && forall f :: Meets(body.fields, f)
    ensures r.Success? ==> forall f :: Key(f) in body.fields && body.fields[Key(f)] == JString(Get(r.value, f))
    ensures r.Success? ==> ValidBrief(r.value)
    ensures r.Failure? && body.JObject? ==>
              |r.error| >= 1 && forall f :: f in Failed(r.error) <==> !Meets(body.fields, f)
    ensures r.Failure? && body.JObject? ==>
              forall i :: 0 <= i < |r.error| ==> r.error[i].messages == [Message(Check(body.fields, r.error[i].field).value)]
    ensures !body.JObject? ==> r == Failure([])
  {
    if !body.JObject? then Failure([])
    else
      var obj := body.fields;
      var errs := Collect(obj, Fields);
      CollectAll(obj);
      if errs == [] then Success(ReadBrief(obj)) else Failure(errs)
  }

  /** Over the whole schema, the collected errors name exactly the failing fields. */
  lemma CollectAll(obj: map<string, Value>)
    ensures forall f :: f in Failed(Collect(obj, Fields)) <==> !Meets(obj, f)
    ensures Collect(obj, Fields) == [] <==> forall f :: Meets(obj, f)
  {
    FieldsListed();
    if Collect(obj, Fields) == [] {
      AllMeet(obj, Collect(obj, Fields));
    }
  }

  /** The brief held by an object whose every field meets the schema. */
  function ReadBrief(obj: map<string, Value>): (b: Brief)
    requires forall f :: Meets(obj, f)
    ensures forall f :: Key(f) in obj && obj[Key(f)] == JString(Get(b, f))
    ensures ValidBrief(b)
  {
    var b := Brief(StringAt(obj, Topic), StringAt(obj, Audience), StringAt(obj, Goal), StringAt(obj, Duration),
                   StringAt(obj, Tone), StringAt(obj, CallToAction), StringAt(obj, Language));
    ReadBack(obj, b);
    assert ValidBrief(b) by {
      forall f ensures Utf16Length(Get(b, f)) >= MinLength(f) {
        assert Meets(obj, f) && obj[Key(f)] == JString(Get(b, f));
      }
    }
    b
  }

  /** The text of a field that meets the schema. */
  function StringAt(obj: map<string, Value>, f: Field): string
    requires Meets(obj, f)
  {
    obj[Key(f)].s
  }

  /** No collected error means every field meets the schema. */
  lemma AllMeet(obj: map<string, Value>, errs: seq<FieldError>)
    requires errs == Collect(obj, Fields) && errs == []
    ensures forall f :: Meets(obj, f)
  {
    forall f ensures Meets(obj, f) {
      FieldsComplete(f);
      assert f !in Failed(errs);
    }
  }

  /** The brief built from the seven string fields holds exactly their values. */
  lemma ReadBack(obj: map<string, Value>, b: Brief)
    requires forall f :: Meets(obj, f)
    requires b == Brief(StringAt(obj, Topic), StringAt(obj, Audience), StringAt(obj, Goal), StringAt(obj, Duration),
                        StringAt(obj, Tone), StringAt(obj, CallToAction), StringAt(obj, Language))
    ensures forall f :: Key(f) in obj && obj[Key(f)] == JString(Get(b, f))
  {
    forall f ensures Key(f) in obj && obj[Key(f)] == JString(Get(b, f)) {
      assert Meets(obj, f);
      match f
      case Topic =>
      case Audience =>
      case Goal =>
      case Duration =>
      case Tone =>
      case CallToAction =>
      case Language =>
    }
  }

  lemma FieldsListed()
    ensures forall f :: f in Fields
  {
    forall f ensures f in Fields {
      FieldsComplete(f);
    }
  }

  /** The JSON object `JSON.stringify(form)` sends. */
  function ToJson(b: Brief): (r: Value)
    ensures r.JObject? && forall k :: k in r.fields ==> r.fields[k].JString?
  {
    JObject(map[
      "topic" := JString(b.topic),
      "audience" := JString(b.audience),
      "goal" := JString(b.goal),
      "duration" := JString(b.duration),
      "tone" := JString(b.tone),
      "callToAction" := JString(b.callToAction),
      "language" := JString(b.language)])
  }

  /** Every field of the form travels under its own key. */
  lemma ToJsonLookup(b: Brief, f: Field)
    ensures Key(f) in ToJson(b).fields && ToJson(b).fields[Key(f)] == JString(Get(b, f))
  {
    match f
    case Topic =>
    case Audience =>
    case Goal =>
    case Duration =>
    case Tone =>
    case CallToAction =>
    case Language =>
  }

  /** Two briefs that agree on every field are the same brief. */
  lemma BriefExtensional(a: Brief, b: Brief)
    requires forall f :: Get(a, f) == Get(b, f)
    ensures a == b
  {
    assert Get(a, Topic) == Get(b, Topic) && Get(a, Audience) == Get(b, Audience);
    assert Get(a, Goal) == Get(b, Goal) && Get(a, Duration) == Get(b, Duration);
    assert Get(a, Tone) == Get(b, Tone) && Get(a, CallToAction) == Get(b, CallToAction);
    assert Get(a, Language) == Get(b, Language);
  }

  /** A submitted form is accepted exactly when it is valid, and then it comes back unchanged. */
  lemma FormRoundTrip(b: Brief)
    ensures Validate(ToJson(b)).Success? <==> ValidBrief(b)
    ensures Validate(ToJson(b)).Success? ==> Validate(ToJson(b)).value == b
  {
    var j := ToJson(b);
    forall f ensures Key(f) in j.fields && j.fields[Key(f)] == JString(Get(b, f)) {
      ToJsonLookup(b, f);
    }
    assert forall f :: Meets(j.fields, f) <==> Utf16Length(Get(b, f)) >= MinLength(f);
    var r := Validate(j);
    if r.Success? {
      BriefExtensional(r.value, b);
    }
  }

  /** A failing field among `fs` is reported with its own message. */
  lemma CollectReports(obj: map<string, Value>, fs: seq<Field>, f: Field)
    requires f in fs && !Meets(obj, f)
    ensures FieldError(f, [Message(Check(obj, f).value)]) in Collect(obj, fs)
  {
  }

  /** A too-short string field is reported under its key with zod's minimum-length message. */
  lemma ShortFieldReported(body: Value, f: Field)
    requires body.JObject? && Key(f) in body.fields && body.fields[Key(f)].JString?
    requires Utf16Length(body.fields[Key(f)].s) < MinLength(f)
    ensures FieldError(f, [Message(TooShort(MinLength(f)))]) in Validate(body).error
  {
    var obj := body.fields;
    assert Check(obj, f) == Some(TooShort(MinLength(f)));
    FieldsComplete(f);
    CollectReports(obj, Fields, f);
    assert Validate(body) == Failure(Collect(obj, Fields));
  }

  /** A present field that is not a string is reported under its key with zod's type message. */
  lemma WrongTypeReported(body: Value, f: Field)
    requires body.JObject? && Key(f) in body.fields && !body.fields[Key(f)].JString?
    ensures FieldError(f, ["Expected string, received " + TypeName(body.fields[Key(f)])]) in Validate(body).error
  {
    var obj := body.fields;
    assert Check(obj, f) == Some(ExpectedString(TypeName(obj[Key(f)])));
    FieldsComplete(f);
    CollectReports(obj, Fields, f);
    assert Validate(body) == Failure(Collect(obj, Fields));
  }

  /** The brief the page starts with. */
  const DefaultForm: Brief := Brief(
    "3 AI automations that save content creators 10 hours a week",
    "ambitious solo creators and micro businesses that already post on TikTok or YouTube",
    "drive newsletter sign-ups by showcasing quick wins and expertise",
    "55 seconds",
    "high-energy, trustworthy, story-driven",
    "Invite viewers to download a free workflow template linked in bio",
    "English")

  /** The default form passes the request schema as it stands. */
  lemma DefaultFormValid()
    ensures ValidBrief(DefaultForm)
    ensures Validate(ToJson(DefaultForm)) == Success(DefaultForm)
  {
    forall f ensures Utf16Length(Get(DefaultForm, f)) >= MinLength(f) {
      match f
      case Topic =>
      case Audience =>
      case Goal =>
      case Duration =>
      case Tone =>
      case CallToAction =>
      case Language =>
    }
    FormRoundTrip(DefaultForm);
  }
}

=== FILE: exceptions.dfy ===
/** What a JavaScript `catch` receives, and how both ends turn it into a message. */
module Exceptions {

  /** A thrown value: an `Error` (which has a message) or anything else. */
  datatype Thrown = ErrorObject(message: string) | OtherValue

  /** `error instanceof Error ? error.message : fallback`. */
  function CaughtMessage(t: Thrown, fallback: string): (m: string)
    ensures t.ErrorObject? ==> m == t.message
    ensures t.OtherValue? ==> m == fallback
  {
    match t
    case ErrorObject(msg) => msg
    case OtherValue => fallback
  }
}

=== FILE: json.dfy ===
/** The JSON values that `JSON.parse` produces and that zod inspects. */
module Json {

  /**
   * A parsed JSON value. Objects are maps because `JSON.parse` keeps only the
   * last of duplicated keys; numbers are kept as reals since only their type matters here.
   */
  datatype Value =
    | JNull
    | JBool(b: bool)
    | JNumber(n: real)
    | JString(s: string)
    | JArray(items: seq<Value>)
    | JObject(fields: map<string, Value>)

  /** The type name zod reports for a value in "Expected string, received <type>". */
  function TypeName(v: Value): string
  {
    match v
    case JNull => "null"
    case JBool(_) => "boolean"
    case JNumber(_) => "number"
    case JString(_) => "string"
    case JArray(_) => "array"
    case JObject(_) => "object"
  }
}

=== FILE: package.dfy ===
/**
 * The pure string logic of app/page.tsx: the flattened plain-text package
 * (`compiledScript`), the on-screen hashtag transform, and `classNames`.
 */
module Package {
  import opened Wrappers
  import opened Text
  import opened BlueprintSchema

  const DashSeparator := " \U{2014} "

  /** `${timestamp} — ${narration} [On-screen: ${onScreen}]` */
  function BeatLine(b: Beat): string
  {
    b.timestamp + DashSeparator + b.narration + " [On-screen: " + b.onScreen + "]"
  }

  /** `${label} (${duration}): ${description}` */
  function ShotHead(s: Shot): string
  {
    s.shotLabel + " (" + s.duration + "): " + s.description
  }

  /** The shot's head, followed by ` — ${notes}` when the notes are not empty. */
  function ShotLine(s: Shot): string
  {
    ShotHead(s) + (if s.notes != "" then DashSeparator + s.notes else "")
  }

  function BeatLines(bs: seq<Beat>): (r: seq<string>)
    ensures |r| == |bs| && forall i :: 0 <= i < |bs| ==> r[i] == BeatLine(bs[i])
  {
    if |bs| == 0 then [] else [BeatLine(bs[0])] + BeatLines(bs[1..])
  }

  function ShotLines(ss: seq<Shot>): (r: seq<string>)
    ensures |r| == |ss| && forall i :: 0 <= i < |ss| ==> r[i] == ShotLine(ss[i])
  {
    if |ss| == 0 then [] else [ShotLine(ss[0])] + ShotLines(ss[1..])
  }

  /** `result.hashtags.join(" ")`: the raw tags, with no `#` added or removed. */
  function HashtagText(bp: Blueprint): string
  {
    Join(" ", bp.hashtags)
  }

  /** The thirteen parts of the package, in order; the beats and the shots are one part each. */
  function Parts(bp: Blueprint): seq<string>
  {
    [ "Title: " + bp.title,
      "Hook: " + bp.hook,
      "",
      "Script Beats:",
      Join("\n", BeatLines(bp.script)),
      "",
      "Shot Plan:",
      Join("\n", ShotLines(bp.shotPlan)),
      "",
      "CTA: " + bp.callToAction,
      "",
      "Caption: " + bp.caption,
      "Hashtags: " + HashtagText(bp)]
  }

  /** `compiledScript`: "" with no result, otherwise the thirteen parts joined by newlines. */
  function CompiledScript(result: Option<Blueprint>): (r: string)
    ensures r == "" <==> result.None?
    ensures result.Some? ==> "Title: " + result.value.title <= r
  {
    match result
    case None => ""
    case Some(bp) =>
      var parts := Parts(bp);
      JoinStartsWithFirst("\n", parts);
      Join("\n", parts)
  }

  /** The package line by line, with each beat and each shot on a line of its own. */
  function PackageLines(bp: Blueprint): seq<string>
  {
    ["Title: " + bp.title, "Hook: " + bp.hook, "", "Script Beats:"]
    + BeatLines(bp.script)
    + ["", "Shot Plan:"]
    + ShotLines(bp.shotPlan)
    + ["", "CTA: " + bp.callToAction, "", "Caption: " + bp.caption, "Hashtags: " + HashtagText(bp)]
  }

  /** With at least one beat and one shot, the package is its lines joined by newlines. */
  lemma {:induction false} CompiledIsLines(bp: Blueprint)
    requires |bp.script| >= 1 && |bp.shotPlan| >= 1
    ensures CompiledScript(Some(bp)) == Join("\n", PackageLines(bp))
  {
    var head := ["Title: " + bp.title, "Hook: " + bp.hook, "", "Script Beats:"];
    var mid := ["", "Shot Plan:"];
    var tail := ["", "CTA: " + bp.callToAction, "", "Caption: " + bp.caption, "Hashtags: " + HashtagText(bp)];
    var beats := BeatLines(bp.script);
    var shots := ShotLines(bp.shotPlan);
    var jb := Join("\n", beats);
    var js := Join("\n", shots);
    var parts := head + [jb] + (mid + [js] + tail);
    assert |parts| == |Parts(bp)|;
    assert forall k :: 0 <= k < |parts| ==> parts[k] == Parts(bp)[k];
    assert Parts(bp) == parts;
    JoinFlatten("\n", head, beats, mid + [js] + tail);
    assert head + beats + (mid + [js] + tail) == (head + beats + mid) + [js] + tail;
    JoinFlatten("\n", head + beats + mid, shots, tail);
    assert (head + beats + mid) + shots + tail == PackageLines(bp);
  }

  /** The strings of a blueprint that appear in the package. */
  predicate SingleLine(bp: Blueprint)
  {
    && '\n' !in bp.title && '\n' !in bp.hook && '\n' !in bp.callToAction && '\n' !in bp.caption
    && (forall i :: 0 <= i < |bp.script| ==>
          '\n' !in bp.script[i].timestamp && '\n' !in bp.script[i].narration && '\n' !in bp.script[i].onScreen)
    && (forall i :: 0 <= i < |bp.shotPlan| ==>
          '\n' !in bp.shotPlan[i].shotLabel && '\n' !in bp.shotPlan[i].duration
          && '\n' !in bp.shotPlan[i].description && '\n' !in bp.shotPlan[i].notes)
    && (forall i :: 0 <= i < |bp.hashtags| ==> '\n' !in bp.hashtags[i])
  }

  /** A join of newline-free parts around a newline-free separator holds no newline. */
  lemma {:induction false} JoinSingleLine(sep: string, parts: seq<string>)
    requires '\n' !in sep && Free('\n', parts)
    ensures '\n' !in Join(sep, parts)
  {
    if |parts| > 1 {
      assert Free('\n', parts[1..]) by {
        forall k | 0 <= k < |parts| - 1 ensures '\n' !in parts[1..][k] {
          assert parts[1..][k] == parts[k + 1];
        }
      }
      JoinSingleLine(sep, parts[1..]);
    }
  }

  lemma {:induction false} FreeConcat(c: char, a: seq<string>, b: seq<string>)
    requires Free(c, a) && Free(c, b)
    ensures Free(c, a + b)
  {
    forall k | 0 <= k < |a + b| ensures c !in (a + b)[k] {
      if k < |a| {
        assert (a + b)[k] == a[k];
      } else {
        assert (a + b)[k] == b[k - |a|];
      }
    }
  }

  /** A string with no line break, and the concatenation of two such. */
  lemma {:induction false} NoBreakConcat(a: string, b: string)
    requires '\n' !in a && '\n' !in b
    ensures '\n' !in a + b
  {
    forall k | 0 <= k < |a + b| ensures (a + b)[k] != '\n' {
      if k < |a| {
        assert (a + b)[k] == a[k];
      } else {
        assert (a + b)[k] == b[k - |a|];
      }
    }
  }

  lemma BeatLineSingle(b: Beat)
    requires '\n' !in b.timestamp && '\n' !in b.narration && '\n' !in b.onScreen
    ensures '\n' !in BeatLine(b)
  {
    var open := " [On-screen: ";
    assert '\n' !in DashSeparator && '\n' !in open && '\n' !in "]";
    NoBreakConcat(b.timestamp, DashSeparator);
    NoBreakConcat(b.timestamp + DashSeparator, b.narration);
    NoBreakConcat(b.timestamp + DashSeparator + b.narration, open);
    NoBreakConcat(b.timestamp + DashSeparator + b.narration + open, b.onScreen);
    NoBreakConcat(b.timestamp + DashSeparator + b.narration + open + b.onScreen, "]");
  }

  lemma ShotLineSingle(s: Shot)
    requires '\n' !in s.shotLabel && '\n' !in s.duration && '\n' !in s.description && '\n' !in s.notes
    ensures '\n' !in ShotLine(s)
  {
    assert '\n' !in DashSeparator && '\n' !in " (" && '\n' !in "): ";
    NoBreakConcat(s.shotLabel, " (");
    NoBreakConcat(s.shotLabel + " (", s.duration);
    NoBreakConcat(s.shotLabel + " (" + s.duration, "): ");
    NoBreakConcat(s.shotLabel + " (" + s.duration + "): ", s.description);
    NoBreakConcat(DashSeparator, s.notes);
    NoBreakConcat(ShotHead(s), if s.notes != "" then DashSeparator + s.notes else "");
  }

  lemma BeatLinesFree(bs: seq<Beat>)
    requires forall i :: 0 <= i < |bs| ==>
               '\n' !in bs[i].timestamp && '\n' !in bs[i].narration && '\n' !in bs[i].onScreen
    ensures Free('\n', BeatLines(bs))
  {
    var ls := BeatLines(bs);
    forall i | 0 <= i < |ls| ensures '\n' !in ls[i] {
      BeatLineSingle(bs[i]);
    }
  }

  lemma ShotLinesFree(ss: seq<Shot>)
    requires forall i :: 0 <= i < |ss| ==>
               '\n' !in ss[i].shotLabel && '\n' !in ss[i].duration
               && '\n' !in ss[i].description && '\n' !in ss[i].notes
    ensures Free('\n', ShotLines(ss))
  {
    var ls := ShotLines(ss);
    forall i | 0 <= i < |ls| ensures '\n' !in ls[i] {
      ShotLineSingle(ss[i]);
    }
  }

  lemma PackageLinesFree(bp: Blueprint)
    requires SingleLine(bp)
    ensures Free('\n', PackageLines(bp))
  {
    var head := ["Title: " + bp.title, "Hook: " + bp.hook, "", "Script Beats:"];
    var mid := ["", "Shot Plan:"];
    var tail := ["", "CTA: " + bp.callToAction, "", "Caption: " + bp.caption, "Hashtags: " + HashtagText(bp)];
    assert Free('\n', bp.hashtags);
    JoinSingleLine(" ", bp.hashtags);
    assert Free('\n', head);
    assert Free('\n', mid);
    assert Free('\n', tail);
    BeatLinesFree(bp.script);
    ShotLinesFree(bp.shotPlan);
    FreeConcat('\n', head, BeatLines(bp.script));
    FreeConcat('\n', head + BeatLines(bp.script), mid);
    FreeConcat('\n', head + BeatLines(bp.script) + mid, ShotLines(bp.shotPlan));
    FreeConcat('\n', head + BeatLines(bp.script) + mid + ShotLines(bp.shotPlan), tail);
  }

  /**
   * Line by line, the package reads: title, hook, a blank line, "Script
   * Beats:", one line per beat, a blank line, "Shot Plan:", one line per
   * shot, a blank line, the call to action, a blank line, the caption and
   * the hashtags.
   */
  lemma {:induction false} PackageLayout(bp: Blueprint)
    requires |bp.script| >= 1 && |bp.shotPlan| >= 1 && SingleLine(bp)
    ensures Split('\n', CompiledScript(Some(bp))) == PackageLines(bp)
    ensures |PackageLines(bp)| == 11 + |bp.script| + |bp.shotPlan|
  {
    CompiledIsLines(bp);
    PackageLinesFree(bp);
    SplitJoin('\n', PackageLines(bp));
  }

  /**
   * Where each line of the package sits: the fixed headings, beat `i` on line
   * `4 + i` in beat order, shot `j` on line `6 + n + j` in shot order, and
   * the closing lines, with `n` beats and `m` shots.
   */
  lemma PackageLinePositions(bp: Blueprint)
    ensures var ls, n, m := PackageLines(bp), |bp.script|, |bp.shotPlan|;
      && |ls| == 11 + n + m
      && ls[0] == "Title: " + bp.title && ls[1] == "Hook: " + bp.hook
      && ls[2] == "" && ls[3] == "Script Beats:"
      && (forall i :: 0 <= i < n ==> ls[4 + i] == BeatLine(bp.script[i]))
      && ls[4 + n] == "" && ls[5 + n] == "Shot Plan:"
      && (forall j :: 0 <= j < m ==> ls[6 + n + j] == ShotLine(bp.shotPlan[j]))
      && ls[6 + n + m] == "" && ls[7 + n + m] == "CTA: " + bp.callToAction
      && ls[8 + n + m] == "" && ls[9 + n + m] == "Caption: " + bp.caption
      && ls[10 + n + m] == "Hashtags: " + Join(" ", bp.hashtags)
  {
  }

  /** A shot's line shows its notes, after an em dash, exactly when they are not empty. */
  lemma ShotNotesShown(s: Shot)
    ensures ShotHead(s) <= ShotLine(s)
    ensures s.notes == "" <==> ShotLine(s) == ShotHead(s)
    ensures s.notes != "" ==> ShotLine(s)[|ShotHead(s)|..] == DashSeparator + s.notes
  {
    if s.notes != "" {
      assert |ShotLine(s)| > |ShotHead(s)|;
    }
  }

  /** The package's hashtag line carries the raw tags: splitting it on spaces gives them back. */
  lemma {:induction false} HashtagsRaw(bp: Blueprint)
    requires |bp.hashtags| >= 1 && Free(' ', bp.hashtags)
    ensures Split(' ', HashtagText(bp)) == bp.hashtags
  {
    SplitJoin(' ', bp.hashtags);
  }

  // ---------------------------------------------------------------------------
  // Hashtags on screen

  /** `` `#${tag.replace(/^#/, "")}` ``: drop at most one leading `#`, then prepend one. */
  function DisplayTag(tag: string): (r: string)
    ensures |r| >= 1 && r[0] == '#'
    ensures r == (if |tag| >= 1 && tag[0] == '#' then tag else "#" + tag)
  {
    "#" + (if |tag| >= 1 && tag[0] == '#' then tag[1..] else tag)
  }

  /** Showing a shown tag changes nothing. */
  lemma DisplayTagIdempotent(tag: string)
    ensures DisplayTag(DisplayTag(tag)) == DisplayTag(tag)
  {
  }

  /** Only one `#` is removed: a tag with two keeps both. */
  lemma DoubleHashKept()
    ensures DisplayTag("##x") == "##x"
    ensures DisplayTag("x") == "#x" && DisplayTag("#x") == "#x"
  {
  }

  function DisplayTags(tags: seq<string>): (r: seq<string>)
    ensures |r| == |tags| && forall i :: 0 <= i < |tags| ==> r[i] == DisplayTag(tags[i])
  {
    if |tags| == 0 then [] else [DisplayTag(tags[0])] + DisplayTags(tags[1..])
  }

  /** The hashtag line on screen: each tag shown with a single leading `#`, space separated. */
  function DisplayedHashtags(bp: Blueprint): string
  {
    Join(" ", DisplayTags(bp.hashtags))
  }

  /** Every word of the on-screen hashtag line starts with `#`, one word per tag, in order. */
  lemma {:induction false} DisplayedHashtagWords(bp: Blueprint)
    requires |bp.hashtags| >= 1 && Free(' ', bp.hashtags)
    ensures Split(' ', DisplayedHashtags(bp)) == DisplayTags(bp.hashtags)
    ensures forall i :: 0 <= i < |bp.hashtags| ==> Split(' ', DisplayedHashtags(bp))[i][0] == '#'
  {
    var shown := DisplayTags(bp.hashtags);
    assert Free(' ', shown) by {
      forall i | 0 <= i < |shown| ensures ' ' !in shown[i] {
        assert ' ' !in bp.hashtags[i];
      }
    }
    SplitJoin(' ', shown);
  }

  // ---------------------------------------------------------------------------
  // classNames

  /** An argument of `classNames`: a string, `false`, `null` or `undefined`. */
  datatype ClassValue = Str(s: string) | False | Null | Undefined

  /** JavaScript truthiness of an argument: a non-empty string. */
  predicate Truthy(v: ClassValue)
  {
    v.Str? && v.s != ""
  }

  /** `values.filter(Boolean)`, as strings. */
  function Kept(values: seq<ClassValue>): (r: seq<string>)
    ensures |r| <= |values|
    ensures forall k :: 0 <= k < |r| ==> r[k] != ""
    ensures forall x :: x in r <==> Str(x) in values && x != ""
  {
    if |values| == 0 then []
    else
      var rest := Kept(values[1..]);
      assert values == [values[0]] + values[1..];
      if Truthy(values[0]) then [values[0].s] + rest else rest
  }

  /** `classNames(...values)`: the truthy entries joined by single spaces. */
  function ClassNames(values: seq<ClassValue>): string
  {
    Join(" ", Kept(values))
  }

  /** `filter` distributes over concatenation: order and repeats are kept. */
  lemma {:induction false} KeptConcat(a: seq<ClassValue>, b: seq<ClassValue>)
    ensures Kept(a + b) == Kept(a) + Kept(b)
    decreases |a|
  {
    if |a| == 0 {
      assert a + b == b;
    } else {
      assert (a + b)[0] == a[0];
      assert (a + b)[1..] == a[1..] + b;
      KeptConcat(a[1..], b);
    }
  }

  /** One argument is kept, as its string, exactly when it is truthy. */
  lemma KeptSingle(v: ClassValue)
    ensures Kept([v]) == (if Truthy(v) then [v.s] else [])
  {
  }

  /** The class string is empty exactly when no entry is truthy. */
  lemma ClassNamesEmpty(values: seq<ClassValue>)
    ensures ClassNames(values) == "" <==> forall i :: 0 <= i < |values| ==> !Truthy(values[i])
  {
    var kept := Kept(values);
    assert forall i :: 0 <= i < |values| && Truthy(values[i]) ==> values[i].s in kept;
    if |kept| >= 1 {
      JoinStartsWithFirst(" ", kept);
      assert kept[0] in kept;
      var i :| 0 <= i < |values| && values[i] == Str(kept[0]);
    }
  }

  /** When no class holds a space, the words of the result are exactly the truthy entries, in order. */
  lemma {:induction false} ClassNamesWords(values: seq<ClassValue>)
    requires |Kept(values)| >= 1 && Free(' ', Kept(values))
    ensures Split(' ', ClassNames(values)) == Kept(values)
  {
    SplitJoin(' ', Kept(values));
  }
}

=== FILE: prompt.dfy ===
/**
 * The user instruction the route sends to the model: a fixed template with
 * the seven brief fields interpolated in schema order (app/api/generate/route.ts).
 */
module Prompt {
  import opened Wrappers
  import opened Text
  import opened BriefSchema

  /** The text before each field's value on its line. */
  function Label(f: Field): string
  {
    match f
    case Topic => "Topic: "
    case Audience => "Target audience: "
    case Goal => "Primary goal: "
    case Duration => "Desired duration: "
    case Tone => "Tone & visual style: "
    case CallToAction => "Call to action: "
    case Language => "Language: "
  }

  const Heading := "Brief:"

  /**
   * The closing directive: "Deliver an executable blueprint for a single
   * YouTube Short that can be filmed today." It is written as four literals
   * only because the verifier checks a short literal for line breaks
   * character by character, and one 84-character literal is too long for that.
   */
  const Closing := "Deliver an executable" + " blueprint for a single" + " YouTube Short that can" + " be filmed today."

  /** `Closing` holds no line break. */
  lemma ClosingSingleLine()
    ensures '\n' !in Closing
  {
  }

  /** One line per field, `Label(f) + value`, in the order of `fs`. */
  function FieldLines(b: Brief, fs: seq<Field>): (r: seq<string>)
    ensures |r| == |fs|
    ensures forall i :: 0 <= i < |fs| ==> r[i] == Label(fs[i]) + Get(b, fs[i])
  {
    if |fs| == 0 then [] else [Label(fs[0]) + Get(b, fs[0])] + FieldLines(b, fs[1..])
  }

  /** The lines of the template: heading, the seven fields, a blank line, the closing directive. */
  function Lines(b: Brief): seq<string>
  {
    [Heading] + FieldLines(b, Fields) + ["", Closing]
  }

  /** The user instruction: the template's lines separated by newlines. */
  function UserPrompt(b: Brief): string
  {
    Join("\n", Lines(b))
  }

  /** No field of the brief holds a line break. */
  predicate SingleLine(b: Brief)
  {
    forall f :: '\n' !in Get(b, f)
  }

  /** The value after `prefix` on `line`, when the line starts with it. */
  function After(prefix: string, line: string): Option<string>
  {
    if prefix <= line then Some(line[|prefix|..]) else None
  }

  /** Reads a brief back from a user instruction laid out by the template. */
  function ReadPrompt(s: string): Option<Brief>
  {
    ReadLines(Split('\n', s))
  }

  /** Reads a brief back from the template's lines. */
  function ReadLines(ls: seq<string>): Option<Brief>
  {
    if |ls| != 10 || ls[0] != Heading || ls[8] != "" || ls[9] != Closing then None
    else
      var t := After(Label(Topic), ls[1]);
      var a := After(Label(Audience), ls[2]);
      var g := After(Label(Goal), ls[3]);
      var d := After(Label(Duration), ls[4]);
      var o := After(Label(Tone), ls[5]);
      var c := After(Label(CallToAction), ls[6]);
      var l := After(Label(Language), ls[7]);
      if t.Some? && a.Some? && g.Some? && d.Some? && o.Some? && c.Some? && l.Some? then
        Some(Brief(t.value, a.value, g.value, d.value, o.value, c.value, l.value))
      else None
  }

  lemma LabelSingleLine(f: Field)
    ensures '\n' !in Label(f)
  {
    match f
    case Topic =>
    case Audience =>
    case Goal =>
    case Duration =>
    case Tone =>
    case CallToAction =>
    case Language =>
  }

  /** Line `i + 1` of the template is the label and value of the `i`-th schema field. */
  lemma LinesShape(b: Brief)
    ensures |Lines(b)| == 10
    ensures Lines(b)[0] == Heading && Lines(b)[8] == "" && Lines(b)[9] == Closing
    ensures forall i :: 0 <= i < 7 ==> Lines(b)[i + 1] == Label(Fields[i]) + Get(b, Fields[i])
  {
    var fl := FieldLines(b, Fields);
    assert forall i :: 0 <= i < 7 ==> Lines(b)[i + 1] == fl[i];
  }

  /**
   * The prompt's lines are the template's, in order: line `i + 1` is the
   * label and value of the `i`-th schema field.
   */
  lemma {:induction false} PromptLines(b: Brief)
    requires SingleLine(b)
    ensures Split('\n', UserPrompt(b)) == Lines(b)
    ensures |Lines(b)| == 10
    ensures forall i :: 0 <= i < 7 ==> Lines(b)[i + 1] == Label(Fields[i]) + Get(b, Fields[i])
  {
    var ls := Lines(b);
    LinesShape(b);
    forall k | 0 <= k < |ls| ensures '\n' !in ls[k] {
      if 1 <= k <= 7 {
        var f := Fields[k - 1];
        LabelSingleLine(f);
        assert '\n' !in Get(b, f);
        assert ls[k] == Label(f) + Get(b, f);
      } else if k == 0 {
        assert '\n' !in Heading;
      } else if k == 9 {
        ClosingSingleLine();
      }
    }
    SplitJoin('\n', ls);
  }

  /** The brief can be read back from its prompt: the fields are interpolated positionally and losslessly. */
  lemma {:induction false} PromptRoundTrip(b: Brief)
    requires SingleLine(b)
    ensures ReadPrompt(UserPrompt(b)) == Some(b)
  {
    PromptLines(b);
    LinesReadBack(b);
  }

  /** Each labelled line gives back its field's value. */
  lemma LinesReadBack(b: Brief)
    ensures ReadLines(Lines(b)) == Some(b)
  {
    LinesShape(b);
    var ls := Lines(b);
    forall i | 0 <= i < 7 ensures After(Label(Fields[i]), ls[i + 1]) == Some(Get(b, Fields[i])) {
      var f := Fields[i];
      assert (Label(f) + Get(b, f))[|Label(f)|..] == Get(b, f);
    }
    assert After(Label(Topic), ls[1]) == Some(b.topic);
    assert After(Label(Audience), ls[2]) == Some(b.audience);
    assert After(Label(Goal), ls[3]) == Some(b.goal);
    assert After(Label(Duration), ls[4]) == Some(b.duration);
    assert After(Label(Tone), ls[5]) == Some(b.tone);
    assert After(Label(CallToAction), ls[6]) == Some(b.callToAction);
    assert After(Label(Language), ls[7]) == Some(b.language);
  }

  /** Different single-line briefs give different prompts. */
  lemma {:induction false} PromptInjective(a: Brief, b: Brief)
    requires SingleLine(a) && SingleLine(b) && UserPrompt(a) == UserPrompt(b)
    ensures a == b
  {
    PromptRoundTrip(a);
    PromptRoundTrip(b);
  }
}

=== FILE: route.dfy ===
/**
 * The POST handler of app/api/generate/route.ts as a function of its inputs:
 * whether the API key is configured, the request's JSON body, the model
 * (a function from the user prompt to its reply) and `JSON.parse` (a function
 * from text to a value or the text of its `SyntaxError`).
 */
module GenerateRoute {
  import opened Wrappers
  import opened Json
  import opened Exceptions
  import opened BriefSchema
  import opened BlueprintSchema
  import opened Prompt

  /** The result of `openai.responses.create`: its `output_text`, possibly undefined, or what it threw. */
  datatype ModelReply = Replied(outputText: Option<string>) | Threw(thrown: Thrown)

  /** The JSON bodies the route answers with. */
  datatype Body =
    | BlueprintBody(blueprint: Blueprint)           // the parsed blueprint itself
    | FieldErrorsBody(errors: seq<FieldError>)      // `{ error: fieldErrors }`
    | MessageBody(message: string)                  // `{ error: message }`
    | SchemaErrorBody(schemaError: SchemaError)     // `{ error: zodError.message }`

  datatype Response = Response(status: nat, body: Body)

  const MissingKeyMessage := "OPENAI_API_KEY is not configured on the server."
  const NoContentMessage := "No content returned from model."
  const FallbackMessage := "Failed to synthesize a short blueprint. Please retry."

  /** `!apiKey` is false: the variable is set and not the empty string. */
  predicate KeyConfigured(apiKey: Option<string>)
  {
    apiKey.Some? && apiKey.value != ""
  }

  /** The `try` block: call the model, check its output, parse it, validate it. */
  function Synthesize(b: Brief, model: string -> ModelReply, parse: string -> Result<Value, string>): (r: Response)
    ensures r.status == 200 || r.status == 500
    ensures r.status == 200 <==> r.body.BlueprintBody?
    ensures r.status == 200 ==> Valid(r.body.blueprint)
  {
    match model(UserPrompt(b))
    case Threw(t) => Response(500, MessageBody(CaughtMessage(t, FallbackMessage)))
    case Replied(out) =>
      if out.None? || out.value == "" then Response(500, MessageBody(NoContentMessage))
      else match parse(out.value)
        case Failure(syntaxError) => Response(500, MessageBody(syntaxError))
        case Success(v) =>
          match Decode(v)
          case Failure(e) => Response(500, SchemaErrorBody(e))
          case Success(bp) => Response(200, BlueprintBody(bp))
  }

  /** `POST(request)`. */
  function Generate(apiKey: Option<string>, body: Value,
                    model: string -> ModelReply, parse: string -> Result<Value, string>): (r: Response)
    ensures !KeyConfigured(apiKey) ==> r == Response(500, MessageBody(MissingKeyMessage))
    ensures r.status == 200 || r.status == 400 || r.status == 500
    ensures r.status == 400 <==> KeyConfigured(apiKey) && Validate(body).Failure?
    ensures r.status == 400 ==> r.body == FieldErrorsBody(Validate(body).error)
    ensures r.status == 200 <==> r.body.BlueprintBody?
    ensures r.status == 200 ==> Valid(r.body.blueprint)
  {
    if !KeyConfigured(apiKey) then Response(500, MessageBody(MissingKeyMessage))
    else match Validate(body)
      case Failure(errs) => Response(400, FieldErrorsBody(errs))
      case Success(b) => Synthesize(b, model, parse)
  }

  /**
   * A 200 answer happens exactly when the key is set, the brief is valid, the
   * model returns non-empty text, that text parses, and the value conforms;
   * the body is then the decoded blueprint.
   */
  lemma SuccessPath(apiKey: Option<string>, body: Value,
                    model: string -> ModelReply, parse: string -> Result<Value, string>)
    ensures var r := Generate(apiKey, body, model, parse);
      r.status == 200 <==>
        && KeyConfigured(apiKey) && Validate(body).Success?
        && var reply := model(UserPrompt(Validate(body).value));
        && reply.Replied? && reply.outputText.Some? && reply.outputText.value != ""
        && parse(reply.outputText.value).Success?
        && Decode(parse(reply.outputText.value).value).Success?
    ensures var r := Generate(apiKey, body, model, parse);
      r.status == 200 ==>
        var out := model(UserPrompt(Validate(body).value)).outputText.value;
        r.body == BlueprintBody(Decode(parse(out).value).value)
  {
  }

  /** Without a key the answer is fixed: neither the body, the model nor the parser is consulted. */
  lemma {:induction false} MissingKeyShortCircuits(apiKey: Option<string>, body1: Value, body2: Value,
                                 m1: string -> ModelReply, m2: string -> ModelReply,
                                 p1: string -> Result<Value, string>, p2: string -> Result<Value, string>)
    requires !KeyConfigured(apiKey)
    ensures Generate(apiKey, body1, m1, p1) == Generate(apiKey, body2, m2, p2)
    ensures Generate(apiKey, body1, m1, p1).status == 500
  {
  }

  /** An invalid brief is answered 400 without consulting the model or the parser. */
  lemma {:induction false} InvalidBriefShortCircuits(apiKey: Option<string>, body: Value,
                                   m1: string -> ModelReply, m2: string -> ModelReply,
                                   p1: string -> Result<Value, string>, p2: string -> Result<Value, string>)
    requires KeyConfigured(apiKey) && Validate(body).Failure?
    ensures Generate(apiKey, body, m1, p1) == Generate(apiKey, body, m2, p2)
    ensures Generate(apiKey, body, m1, p1) == Response(400, FieldErrorsBody(Validate(body).error))
  {
  }

  /** The model is asked one thing only: the prompt built from the validated brief. */
  lemma {:induction false} ModelSeesOnlyThePrompt(b: Brief, m1: string -> ModelReply, m2: string -> ModelReply,
                                                  parse: string -> Result<Value, string>)
    requires m1(UserPrompt(b)) == m2(UserPrompt(b))
    ensures Synthesize(b, m1, parse) == Synthesize(b, m2, parse)
  {
  }

  /** With a key and a valid brief, the answer is that of the `try` block on the parsed brief. */
  lemma {:induction false} ValidBriefSynthesizes(apiKey: Option<string>, body: Value,
                               model: string -> ModelReply, parse: string -> Result<Value, string>)
    requires KeyConfigured(apiKey) && Validate(body).Success?
    ensures Generate(apiKey, body, model, parse) == Synthesize(Validate(body).value, model, parse)
  {
  }

  /** Undefined or empty model output is a 500 with the fixed message, whatever the parser would say. */
  lemma {:induction false} EmptyOutput(b: Brief, model: string -> ModelReply, parse: string -> Result<Value, string>)
    requires model(UserPrompt(b)) in {Replied(None), Replied(Some(""))}
    ensures Synthesize(b, model, parse) == Response(500, MessageBody(NoContentMessage))
  {
  }

  /** A model call that throws is a 500: an `Error` reports its message, any other value the fixed fallback. */
  lemma {:induction false} ModelThrew(b: Brief, t: Thrown, model: string -> ModelReply, parse: string -> Result<Value, string>)
    requires model(UserPrompt(b)) == Threw(t)
    ensures t.ErrorObject? ==> Synthesize(b, model, parse) == Response(500, MessageBody(t.message))
    ensures t.OtherValue? ==> Synthesize(b, model, parse) == Response(500, MessageBody(FallbackMessage))
  {
  }

  /** Text that is not JSON is a 500 carrying the parser's message, and no blueprint. */
  lemma {:induction false} NotJson(b: Brief, out: string, model: string -> ModelReply, parse: string -> Result<Value, string>)
    requires model(UserPrompt(b)) == Replied(Some(out)) && out != ""
    requires parse(out).Failure?
    ensures Synthesize(b, model, parse) == Response(500, MessageBody(parse(out).error))
  {
  }

  /** JSON that misses the schema is a 500 naming the offending keys, and no blueprint. */
  lemma {:induction false} NonConforming(b: Brief, out: string, v: Value,
                       model: string -> ModelReply, parse: string -> Result<Value, string>)
    requires model(UserPrompt(b)) == Replied(Some(out)) && out != ""
    requires parse(out) == Success(v) && v.JObject? && exists k :: !Conforms(v.fields, k)
    ensures var r := Synthesize(b, model, parse);
      && r.status == 500 && r.body.SchemaErrorBody? && r.body.schemaError.InvalidFields?
      && forall k :: k in r.body.schemaError.keys <==> !Conforms(v.fields, k)
  {
  }

  /** A conforming model output is answered 200 with the blueprint it describes. */
  lemma {:induction false} Conforming(b: Brief, out: string, bp: Blueprint,
                    model: string -> ModelReply, parse: string -> Result<Value, string>)
    requires model(UserPrompt(b)) == Replied(Some(out)) && out != ""
    requires Valid(bp) && parse(out) == Success(Encode(bp))
    ensures Synthesize(b, model, parse) == Response(200, BlueprintBody(bp))
  {
    DecodeEncode(bp);
  }
}

=== FILE: submission.dfy ===
/**
 * The page's state and its transitions (app/page.tsx): editing the form,
 * `handleSubmit` (entry, then completion with a result or an error), and the
 * copy-to-clipboard notice. `fetch`, the clipboard and the timer are inputs.
 */
module Submission {
  import opened Wrappers
  import opened Exceptions
  import Json
  import opened BriefSchema
  import opened BlueprintSchema
  import opened Package
  import GenerateRoute

  /** The page's `useState` hooks, as one record. */
  datatype UiState = UiState(
    form: Brief,
    isSubmitting: bool,
    result: Option<Blueprint>,
    error: Option<string>,
    copyMessage: Option<string>)

  /** The page as first rendered. */
  const Initial := UiState(DefaultForm, false, None, None, None)

  /** The four phases a submission goes through. */
  datatype Phase = Idle | Submitting | Succeeded | Failed

  function PhaseOf(s: UiState): Phase
  {
    if s.isSubmitting then Submitting
    else if s.result.Some? then Succeeded
    else if s.error.Some? then Failed
    else Idle
  }

  /** What the request came to, as `handleSubmit` sees it. */
  datatype FetchOutcome =
    | Ok(payload: Blueprint)          // `response.ok`, and `response.json()` gave the blueprint
    | NotOk(bodyText: string)         // `!response.ok`, with `await response.text()`
    | Rejected(thrown: Thrown)        // `fetch` or `response.json()` threw

  const UnableMessage := "Unable to generate plan"
  const UnknownMessage := "Unknown error"
  const CopiedMessage := "Copied to clipboard"
  const CopyFailedMessage := "Copy failed. Try manually."

  /** The error a failed outcome leaves on the page. */
  function FailureText(o: FetchOutcome): (m: string)
    requires !o.Ok?
    ensures o.NotOk? && o.bodyText != "" ==> m == o.bodyText
    ensures o.NotOk? && o.bodyText == "" ==> m == UnableMessage
    ensures o.Rejected? ==> m == CaughtMessage(o.thrown, UnknownMessage)
  {
    match o
    case NotOk(text) => if text != "" then text else UnableMessage
    case Rejected(t) => CaughtMessage(t, UnknownMessage)
  }

  /** Entry of `handleSubmit`: submitting, with the previous result and error cleared. */
  function BeginSubmit(s: UiState): (r: UiState)
    ensures r.isSubmitting && r.result.None? && r.error.None?
    ensures r.form == s.form && r.copyMessage == s.copyMessage
    ensures PhaseOf(r) == Submitting
  {
    s.(isSubmitting := true, result := None, error := None)
  }

  /** Completion of `handleSubmit`: the `try` sets a result or the `catch` an error; `finally` clears submitting. */
  function Finish(s: UiState, o: FetchOutcome): (r: UiState)
    ensures !r.isSubmitting && r.form == s.form && r.copyMessage == s.copyMessage
    ensures o.Ok? ==> r.result == Some(o.payload) && r.error == s.error
    ensures !o.Ok? ==> r.error == Some(FailureText(o)) && r.result == s.result
  {
    match o
    case Ok(payload) => s.(result := Some(payload), isSubmitting := false)
    case _ => s.(error := Some(FailureText(o)), isSubmitting := false)
  }

  /**
   * A whole submission: whatever the page showed before, it ends with exactly
   * one of a result and an error, and no longer submitting.
   */
  function HandleSubmit(s: UiState, o: FetchOutcome): (r: UiState)
    ensures !r.isSubmitting
    ensures r.result.Some? != r.error.Some?
    ensures r.result.Some? <==> o.Ok?
    ensures o.Ok? ==> r.result == Some(o.payload)
    ensures !o.Ok? ==> r.error == Some(FailureText(o))
    ensures PhaseOf(r) == (if o.Ok? then Succeeded else Failed)
    ensures r.form == s.form
  {
    Finish(BeginSubmit(s), o)
  }

  /** `copyToClipboard(text)`: nothing on empty text, otherwise the notice for the clipboard's answer. */
  function CopyToClipboard(s: UiState, text: string, clipboardOk: bool): (r: UiState)
    ensures text == "" ==> r == s
    ensures text != "" ==> r == s.(copyMessage := Some(if clipboardOk then CopiedMessage else CopyFailedMessage))
  {
    if text == "" then s
    else s.(copyMessage := Some(if clipboardOk then CopiedMessage else CopyFailedMessage))
  }

  /** What can happen on the page. */
  datatype Event =
    | Edit(field: Field, value: string)
    | ResetBrief
    | Submit
    | Complete(outcome: FetchOutcome)
    | CopyPackage(clipboardOk: bool)
    | NoticeExpired

  /** The options of the duration `<select>`. */
  const DurationOptions: seq<string> := ["45 seconds", "55 seconds", "60 seconds"]

  /** The six text fields marked `required`: the browser submits the form only when none is empty. */
  predicate FilledIn(form: Brief)
  {
    && form.topic != "" && form.audience != "" && form.goal != ""
    && form.language != "" && form.tone != "" && form.callToAction != ""
  }

  /**
   * Which events can happen: the duration is picked from its options, the
   * form is submitted only with every required field filled in and never
   * while submitting, a completion only arrives for the request in flight,
   * and the copy button is shown only with a result.
   */
  predicate Enabled(s: UiState, e: Event)
  {
    match e
    case Edit(f, v) => f == Duration ==> v in DurationOptions
    case Submit => !s.isSubmitting && FilledIn(s.form)
    case Complete(_) => s.isSubmitting
    case CopyPackage(_) => s.result.Some?
    case _ => true
  }

  /**
   * One event on the page. Only editing and resetting touch the form, and
   * they leave the request, its result and its error as they were.
   */
  function Step(s: UiState, e: Event): (r: UiState)
    ensures !(e.Edit? || e.ResetBrief?) ==> r.form == s.form
    ensures e.Edit? || e.ResetBrief? ==>
              r.isSubmitting == s.isSubmitting && r.result == s.result && r.error == s.error
  {
    match e
    case Edit(f, v) => s.(form := With(s.form, f, v))
    case ResetBrief => s.(form := DefaultForm)
    case Submit => BeginSubmit(s)
    case Complete(o) => Finish(s, o)
    case CopyPackage(ok) => CopyToClipboard(s, CompiledScript(s.result), ok)
    case NoticeExpired => s.(copyMessage := None)
  }

  /** The first render: idle with nothing shown, the default brief accepted as it is, and a duration from the options. */
  lemma InitialPage()
    ensures Inv(Initial) && PhaseOf(Initial) == Idle && Initial.copyMessage.None?
    ensures Validate(ToJson(Initial.form)) == Success(Initial.form)
    ensures Initial.form.duration in DurationOptions
  {
    assert Initial.form == DefaultForm;
    assert DefaultForm.duration == DurationOptions[1];
    DefaultFormValid();
  }

  /** Never both a result and an error; nothing shown while submitting. */
  predicate Inv(s: UiState)
  {
    && !(s.result.Some? && s.error.Some?)
    && (s.isSubmitting ==> s.result.None? && s.error.None?)
  }

  /** Every enabled event keeps the invariant. */
  lemma StepKeepsInv(s: UiState, e: Event)
    requires Inv(s) && Enabled(s, e)
    ensures Inv(Step(s, e))
  {
  }

  function Run(s: UiState, events: seq<Event>): UiState
    decreases |events|
  {
    if |events| == 0 then s else Run(Step(s, events[0]), events[1..])
  }

  /** Each event is enabled in the state it happens in. */
  predicate Admissible(s: UiState, events: seq<Event>)
    decreases |events|
  {
    |events| == 0 || (Enabled(s, events[0]) && Admissible(Step(s, events[0]), events[1..]))
  }

  /** Along any admissible run from a state that keeps the invariant, the invariant holds. */
  lemma {:induction false} RunKeepsInv(s: UiState, events: seq<Event>)
    requires Inv(s) && Admissible(s, events)
    ensures Inv(Run(s, events))
    decreases |events|
  {
    if |events| > 0 {
      StepKeepsInv(s, events[0]);
      RunKeepsInv(Step(s, events[0]), events[1..]);
    }
  }

  /** Every page reachable from the first render has a well-defined phase: it never shows a result and an error together. */
  lemma {:induction false} ReachableConsistent(events: seq<Event>)
    requires Admissible(Initial, events)
    ensures !(Run(Initial, events).result.Some? && Run(Initial, events).error.Some?)
  {
    RunKeepsInv(Initial, events);
  }

  /** Along any admissible run from a state whose duration is one of the `<select>`'s options, it stays one. */
  lemma {:induction false} DurationAlwaysOffered(s: UiState, events: seq<Event>)
    requires s.form.duration in DurationOptions && Admissible(s, events)
    ensures Run(s, events).form.duration in DurationOptions
    decreases |events|
  {
    if |events| > 0 {
      var e := events[0];
      assert Step(s, e).form.duration in DurationOptions by {
        match e
        case Edit(f, v) =>
          if f != Duration {
            assert Get(With(s.form, f, v), Duration) == Get(s.form, Duration);
          }
        case ResetBrief =>
        case _ =>
      }
      DurationAlwaysOffered(Step(s, e), events[1..]);
    }
  }

  /** On every page reachable from the first render the duration is one of the `<select>`'s options. */
  lemma ReachableDuration(events: seq<Event>)
    requires Admissible(Initial, events)
    ensures Run(Initial, events).form.duration in DurationOptions
  {
    DurationAlwaysOffered(Initial, events);
  }

  /** A submission only ever starts from a form whose required fields are all filled in. */
  lemma SubmitNeedsFilledIn(s: UiState)
    requires Enabled(s, Submit)
    ensures FilledIn(s.form) && PhaseOf(Step(s, Submit)) == Submitting
  {
  }

  /** "Reset brief" restores the defaults, which the route accepts as they are. */
  lemma ResetGivesValidBrief(s: UiState)
    ensures var r := Step(s, ResetBrief);
      && r.form == DefaultForm && Validate(ToJson(r.form)) == Success(r.form)
      && r.isSubmitting == s.isSubmitting && r.result == s.result && r.error == s.error
  {
    var r := Step(s, ResetBrief);
    assert r == s.(form := DefaultForm);
    DefaultFormValid();
  }

  /** Pressing "Copy package" always writes a notice: the package of a result is never empty. */
  lemma CopyWithResultWrites(s: UiState, ok: bool)
    requires Enabled(s, CopyPackage(ok))
    ensures Step(s, CopyPackage(ok)).copyMessage == Some(if ok then CopiedMessage else CopyFailedMessage)
  {
  }

  // ---------------------------------------------------------------------------
  // The route's answer, as the page receives it

  /**
   * How a route answer reaches `handleSubmit`: a 2xx answer carrying a
   * blueprint becomes the payload; any other answer is not ok, and its body
   * is read as the text `render` gives (the JSON serialisation).
   */
  function Deliver(resp: GenerateRoute.Response, render: GenerateRoute.Body -> string): FetchOutcome
  {
    if 200 <= resp.status < 300 && resp.body.BlueprintBody? then Ok(resp.body.blueprint)
    else NotOk(render(resp.body))
  }

  /**
   * End to end: after a submission answered by the route, the page shows a
   * result exactly when the route answered 200, and that result is a
   * blueprint meeting every bound of the schema.
   */
  lemma {:induction false} SubmitThroughRoute(s: UiState, apiKey: Option<string>,
                                              model: string -> GenerateRoute.ModelReply,
                                              parse: string -> Result<Json.Value, string>,
                                              render: GenerateRoute.Body -> string)
    ensures var resp := GenerateRoute.Generate(apiKey, ToJson(s.form), model, parse);
      var r := HandleSubmit(s, Deliver(resp, render));
      && (r.result.Some? <==> resp.status == 200)
      && (r.result.Some? ==> Valid(r.result.value))
      && (!ValidBrief(s.form) ==> r.result.None? && r.error.Some?)
  {
    FormRoundTrip(s.form);
  }
}

=== FILE: text.dfy ===
/**
 * The string operations the application relies on: `Array.prototype.join`,
 * `String.prototype.split` on a single character, and the length JavaScript
 * reports for a string (UTF-16 code units).
 */
module Text {

  /** `parts.join(sep)`: the parts with `sep` between neighbours; `[].join(sep)` is "". */
  function Join(sep: string, parts: seq<string>): string
  {
    if |parts| == 0 then ""
    else if |parts| == 1 then parts[0]
    else parts[0] + sep + Join(sep, parts[1..])
  }

  /** Position of the first `c` in `s`, or `|s|` when there is none. */
  function IndexOf(c: char, s: string): (i: nat)
    ensures i <= |s|
    ensures i < |s| ==> s[i] == c
    ensures forall k :: 0 <= k < i ==> s[k] != c
  {
    if |s| == 0 then 0
    else if s[0] == c then 0
    else 1 + IndexOf(c, s[1..])
  }

  /** `s.split(c)` for a one-character separator: never empty, and no part holds `c`. */
  function Split(c: char, s: string): (parts: seq<string>)
    ensures |parts| >= 1
    ensures forall k :: 0 <= k < |parts| ==> c !in parts[k]
    decreases |s|
  {
    var i := IndexOf(c, s);
    if i == |s| then [s]
    else [s[..i]] + Split(c, s[i + 1..])
  }

  /** `s.length` in JavaScript: characters outside the Basic Multilingual Plane take two code units. */
  function Utf16Length(s: string): (n: nat)
    ensures |s| <= n <= 2 * |s|
    ensures (forall k :: 0 <= k < |s| ==> s[k] as int < 0x1_0000) ==> n == |s|
  {
    if |s| == 0 then 0
    else (if s[0] as int >= 0x1_0000 then 2 else 1) + Utf16Length(s[1..])
  }

  /** Length is additive: the code units of `a + b` are those of `a` followed by those of `b`. */
  lemma {:induction false} Utf16LengthConcat(a: string, b: string)
    ensures Utf16Length(a + b) == Utf16Length(a) + Utf16Length(b)
    decreases |a|
  {
    if |a| == 0 {
      assert a + b == b;
    } else {
      assert (a + b)[0] == a[0];
      assert (a + b)[1..] == a[1..] + b;
      Utf16LengthConcat(a[1..], b);
    }
  }

  /** One character is one code unit, or two (a surrogate pair) when it lies outside the Basic Multilingual Plane. */
  lemma Utf16LengthSingle(c: char)
    ensures Utf16Length([c]) == if c as int >= 0x1_0000 then 2 else 1
  {
  }

  /** True when no part of `parts` contains `c`. */
  predicate Free(c: char, parts: seq<string>)
  {
    forall k :: 0 <= k < |parts| ==> c !in parts[k]
  }

  /** The first part always leads the joined text. */
  lemma {:induction false} JoinStartsWithFirst(sep: string, parts: seq<string>)
    requires |parts| >= 1
    ensures parts[0] <= Join(sep, parts)
    ensures |Join(sep, parts)| >= |parts[0]|
  {
  }

  /** Joining a concatenation is joining the halves around one more separator. */
  lemma {:induction false} JoinConcat(sep: string, a: seq<string>, b: seq<string>)
    requires |a| >= 1 && |b| >= 1
    ensures Join(sep, a + b) == Join(sep, a) + sep + Join(sep, b)
  {
    if |a| == 1 {
      assert (a + b)[0] == a[0];
      assert (a + b)[1..] == b;
    } else {
      assert (a + b)[0] == a[0];
      assert (a + b)[1..] == a[1..] + b;
      JoinConcat(sep, a[1..], b);
    }
  }

  /** An element that is itself a join of a non-empty list can be spliced into the outer list. */
  lemma {:induction false} JoinFlatten(sep: string, a: seq<string>, b: seq<string>, c: seq<string>)
    requires |b| >= 1
    ensures Join(sep, a + [Join(sep, b)] + c) == Join(sep, a + b + c)
  {
    var jb := Join(sep, b);
    assert Join(sep, [jb]) == jb;
    if |a| == 0 && |c| == 0 {
      assert a + [jb] + c == [jb];
      assert a + b + c == b;
    } else if |a| == 0 {
      assert a + [jb] + c == [jb] + c;
      assert a + b + c == b + c;
      JoinConcat(sep, [jb], c);
      JoinConcat(sep, b, c);
    } else if |c| == 0 {
      assert a + [jb] + c == a + [jb];
      assert a + b + c == a + b;
      JoinConcat(sep, a, [jb]);
      JoinConcat(sep, a, b);
    } else {
      assert a + [jb] + c == a + ([jb] + c);
      assert a + b + c == a + (b + c);
      JoinConcat(sep, a, [jb] + c);
      JoinConcat(sep, [jb], c);
      JoinConcat(sep, a, b + c);
      JoinConcat(sep, b, c);
    }
  }

  /** `IndexOf` finds the first occurrence: any position holding `c` with none before it. */
  lemma {:induction false} IndexOfFirst(c: char, s: string, i: nat)
    requires i < |s| && s[i] == c
    requires forall k :: 0 <= k < i ==> s[k] != c
    ensures IndexOf(c, s) == i
  {
    if i > 0 {
      assert s[0] != c;
      IndexOfFirst(c, s[1..], i - 1);
    }
  }

  /** Splitting undoes joining: `parts.join(c).split(c)` gives `parts` back when no part holds `c`. */
  lemma {:induction false} SplitJoin(c: char, parts: seq<string>)
    requires |parts| >= 1 && Free(c, parts)
    ensures Split(c, Join([c], parts)) == parts
  {
    var p := parts[0];
    if |parts| == 1 {
      assert c !in p;
      assert IndexOf(c, p) == |p|;
    } else {
      var rest := Join([c], parts[1..]);
      var s := p + [c] + rest;
      assert Join([c], parts) == s;
      assert forall k :: 0 <= k < |p| ==> s[k] == p[k];
      assert c !in p;
      IndexOfFirst(c, s, |p|);
      assert s[..|p|] == p;
      assert s[|p| + 1..] == rest;
      assert Free(c, parts[1..]) by {
        forall k | 0 <= k < |parts[1..]| ensures c !in parts[1..][k] {
          assert parts[1..][k] == parts[k + 1];
        }
      }
      SplitJoin(c, parts[1..]);
      assert parts == [p] + parts[1..];
    }
  }

  /** Joining undoes splitting: `s.split(c).join(c) == s` for every `s`. */
  lemma {:induction false} JoinSplit(c: char, s: string)
    ensures Join([c], Split(c, s)) == s
    decreases |s|
  {
    var i := IndexOf(c, s);
    if i < |s| {
      var rest := Split(c, s[i + 1..]);
      JoinSplit(c, s[i + 1..]);
      assert Split(c, s) == [s[..i]] + rest;
      assert ([s[..i]] + rest)[1..] == rest;
      assert s == s[..i] + [c] + s[i + 1..];
    }
  }
}

=== FILE: wrappers.dfy ===
/** Option and Result, the two shapes every fallible step of the model returns. */
module Wrappers {

  /** A value that may be absent (a JavaScript `undefined` or `null`). */
  datatype Option<+T> = None | Some(value: T)

  /** A computation that either succeeds with a value or fails with an error. */
  datatype Result<+R, +E> = Success(value: R) | Failure(error: E)
}
